=== FILE: README.md ===
# Greedy schedule placement, modelled in Dafny

This project models the deterministic part of the schedule recommender in
`backend/schedule.py`. The recommender reads a slot table and a set of
student preferences. Each preference is a (day, batch) group. The output has
two parts:

- the `ScheduleRecommendation` grid (day → batch → one cell per slot index);
- the `UnAllocatedSchedule` map, which gives each student who got no cell the
  earliest slot still empty, if any.

The model covers these steps:

- **Catalog** (`catalog.dfy`, module `SlotCatalog`). The days, the batches
  and the slot count are read from the slot table. The batches and the count
  come from the reference day "1" and batch "1", as the program does.
- **Greedy placer** (`placement.dfy`, module `Placement`).
  - The grid starts empty, and every group has a cursor at index 0.
  - Students are processed in input order. Each student's groups are tried in
    their listed order, and each group is scanned from its cursor.
  - The first empty cell takes the student, and that group's cursor moves to
    one past it.
  - A group that is not in the catalog raises `KeyError` when the scan
    reaches it.
  - The same pass is written twice: as a recursive function (`Greedy`) and
    as the loops of the source (`PlaceAll`, `TakeTurn`, `Scan`). The loops
    are proved equal to the function.
- **Facts about the greedy pass** (`placement_facts.dfy`, module
  `PlacementFacts`):
  - each cell holds at most one student, and each student holds at most one
    cell;
  - a student only sits in a group they listed, namely the first listed group
    that still had room;
  - groups fill in input order;
  - a student is left out only when every group they listed is full;
  - the placed and unplaced students partition the roster.
- **Leftover suggester** (`leftover.dfy`, module `Leftover`).
  - Every slot is listed in (day, batch, index) order, using Python's string
    order on keys (`order.dfy`, module `Order`). The still-empty ones form a
    queue.
  - Each unplaced student, in order, takes the head of the queue, or `None`
    once the queue is empty.
- **Whole run** (`pipeline.dfy`, module `Pipeline`). The steps are chained in
  the order the program reaches them, with the error each one can raise.
- **Integer program** (`matching.dfy`, module `Matching`). This covers the
  variables of the 0/1 program the script builds and its two constraints,
  but not the solver. The greedy placement is proved to be a feasible point.
  It also models the slot-capacity constraint as written; see
  "## Findings".

Keys are strings, as JSON object keys are. The greedy pass converts each
preference entry with `str` (line 109). The model takes preference groups
after that conversion.

Error paths, as the code has them:

- A preference naming a (day, batch) group outside the catalog aborts the
  run with `KeyError` at line 112, but only if the scan reaches it: a
  student placed by an earlier preference never looks at it. See `Error.UnknownGroup`, `Placement.TurnAborts` and
  `Pipeline.RunFails`.
- Groups with unequal start-time lists are noticed only by the read at
  line 139, after the greedy pass:
  - a shorter list, or a missing batch, raises there (`MissingStartTime`,
    `MissingBatch`);
  - a longer list is silently cut to the reference count;
  - with a reference count of 0 nothing is read at all.
- An empty roster makes `min` over no timestamps raise at line 24
  (`NoStudents`).

## Model

| member | source | states |
|---|---|---|
| Order.StrLessIsLexBefore | backend/schedule.py:136-137 | the key order used by `sorted` is Python's string order: `a < b` iff `a` is a proper prefix of `b` or the first differing character of `a` is smaller |
| Order.StrLessTransitive | backend/schedule.py:136-137 | Python's string order is transitive |
| Order.StrLessTotal | backend/schedule.py:136-137 | any two different keys are ordered one way or the other |
| Order.StrLessIrreflexive | backend/schedule.py:136-137 | no key is below itself |
| Order.Sort | backend/schedule.py:136-137 | `sorted` returns a permutation of its input in non-decreasing string order, and keeps distinct keys distinct |
| Order.SortKeys | backend/schedule.py:136-137 | sorted distinct keys are strictly increasing and are exactly the keys given |
| Order.SortMembers | backend/schedule.py:136-137 | sorting neither adds nor drops a key |
| Order.AscendingIsDistinct | backend/schedule.py:135-142 | a list of slots in strictly ascending (day, batch, index) order never repeats a slot |
| SlotCatalog.Find | backend/schedule.py:20-21 | indexing a dictionary (the table by day, a day by batch) finds a value exactly when the key is present, and it is the value stored under that key; otherwise Python raises `KeyError` |
| SlotCatalog.LoadCatalog | backend/schedule.py:18-21 | a missing day "1" raises, a missing batch "1" of day "1" raises, and otherwise the catalog's days are the table's keys, its batches those of day "1", and its slot count the length of group ("1", "1") |
| SlotCatalog.CheckStartTimes | backend/schedule.py:136-140 | the start-time reads succeed exactly when the count is 0 or every listed group exists and has at least that many start times; an error names a listed group that is missing or too short |
| Placement.Initial | backend/schedule.py:80-102 | the starting grid has one row of slot-count empty cells per catalog group and every cursor at 0 |
| Placement.FirstFree | backend/schedule.py:115-116 | the scan from an index finds the first empty cell at or after it, with every cell in between occupied, or reports that none is empty |
| Placement.Scan | backend/schedule.py:115-123 | the scanning loop returns the same cell as the first-empty-cell search |
| Placement.ScanStopsAtCursor | backend/schedule.py:112-122 | in a state where each row is filled exactly up to its cursor, the scan stops at the cursor itself, or finds nothing when the cursor is at the end |
| Placement.PlaceStudent | backend/schedule.py:104-124 | a turn keeps every row filled exactly up to its cursor, cursors within the slot count and the grid's shape unchanged |
| Placement.TurnLeavesOut | backend/schedule.py:104-124 | a turn places nobody exactly when every listed group is full, and then grid and cursors are unchanged |
| Placement.TurnPlaces | backend/schedule.py:106-122 | a placed student takes the cursor cell of a listed group all of whose predecessors in the list are full; the cursor becomes that index plus one and only that cell changes |
| Placement.TurnAborts | backend/schedule.py:109-112 | a turn fails only with a group outside the catalog that this student lists after only full groups; a list of catalog groups never fails |
| Placement.PutKeepsWellFormed | backend/schedule.py:116-122 | writing at a free cursor cell and advancing the cursor keeps rows filled exactly up to their cursors |
| Placement.GreedyErrorPersists | backend/schedule.py:104-112 | once a prefix of the roster raises, the whole pass raises the same error |
| Placement.TakeTurn | backend/schedule.py:105-123 | the loop over preferences with its `assigned` flag and breaks computes the same turn as the recursive definition |
| Placement.Greedy | backend/schedule.py:104-124 | a pass that does not raise leaves every row filled exactly up to its cursor, cursors within the slot count, and one placement entry per student |
| Placement.PlaceAll | backend/schedule.py:96-124 | the loop over students computes the same outcome as the recursive pass, with one placement entry per student |
| Placement.Unallocated | backend/schedule.py:130 | `unallocated_students` lists exactly the roster ids not placed, in roster order, each once when ids are distinct |
| PlacementFacts.TurnGrows | backend/schedule.py:112-122 | a turn never moves a cursor back and never changes an occupied cell |
| PlacementFacts.GreedyPrefix | backend/schedule.py:104-124 | the state after the first m students grows into the final state, and their placements are the first m placements |
| PlacementFacts.GreedyConsistent | backend/schedule.py:104-124 | every placement is a cell of a group the student lists that holds that student, every occupied cell is someone's placement, and no two placements share a cell |
| PlacementFacts.EachStudentAtMostOnce | backend/schedule.py:105-123 | with distinct ids, no student occupies two cells |
| PlacementFacts.UnplacedMeansPreferencesFull | backend/schedule.py:104-124 | a student left out finds every group they list completely filled in the final grid |
| PlacementFacts.PlacedInFirstOpenPreference | backend/schedule.py:106-120 | a placed student sits in a listed group, and every group listed before it is full in the final grid |
| PlacementFacts.FillOrderWithinGroup | backend/schedule.py:112-122 | of two students placed in the same group, the earlier one has the lower index |
| PlacementFacts.UnallocatedPartition | backend/schedule.py:96-130 | with distinct ids, a student is in `unallocated_students` exactly when the pass left them out, exactly when they appear nowhere in the grid |
| PlacementFacts.GreedySucceeds | backend/schedule.py:109-112 | a roster listing only catalog groups never raises in the pass |
| PlacementFacts.GreedyErrorSource | backend/schedule.py:109-112 | a failing pass names a group outside the catalog that the named student lists |
| Leftover.SlotsOf | backend/schedule.py:135-140 | the nested loops list exactly the slots with a listed day, a listed batch and an index below the count |
| Leftover.AllSlotsSortedOrdered | backend/schedule.py:135-141 | with distinct keys, `all_slots_sorted` lists every catalog slot exactly once, in strictly ascending (day, batch, index) order |
| Leftover.EmptySlots | backend/schedule.py:142 | `empty_slots` holds exactly the listed slots whose cell is empty, in list order |
| Leftover.EmptySlotsAscending | backend/schedule.py:142 | filtering an ascending slot list keeps it ascending |
| Leftover.Suggest | backend/schedule.py:144-151 | the k-th unplaced student, in order, is suggested the k-th queued slot, or None when the queue has fewer than k+1 slots |
| Leftover.SuggestionsOrdered | backend/schedule.py:144-151 | suggestions are listed empty slots, strictly ascending and pairwise distinct; a student gets a slot exactly when fewer students than empty slots came before, so every None follows all slots |
| Leftover.CatalogSuggestions | backend/schedule.py:135-151 | over a catalog with distinct keys the suggestions are `SoundSuggestions`: each suggestion is an empty catalog slot; suggestions ascend and never repeat; each is the first empty catalog slot not yet handed out; and a student gets None only after every empty catalog slot went to an earlier student |
| Leftover.ListedSuggestions | backend/schedule.py:142-151 | the suggestions drawn from an ascending slot list meet all five clauses of `SoundOver` over that list |
| Leftover.QueueSpentBeforeNone | backend/schedule.py:144-151 | a student given None comes after every empty listed slot has been handed out |
| Leftover.NoSkip | backend/schedule.py:146-148 | popping the head of an ascending queue hands each student the first empty slot still free: every empty listed slot below their suggestion went to an earlier student |
| Pipeline.Run | backend/schedule.py:18-151 | a successful run has no more leftover entries than students |
| Pipeline.RunFails | backend/schedule.py:18-139 | each error of a run names its cause: missing day "1" or batch "1", an empty roster, a listed group outside the catalog, or a catalog group whose start times are missing or shorter than the reference group's |
| Pipeline.RunSucceeds | backend/schedule.py:18-139 | with day "1" and batch "1" present, a non-empty roster listing only catalog groups, and every group as long as the reference group, the run succeeds |
| Pipeline.RunGrid | backend/schedule.py:104-151 | the printed grid is the greedy grid (suggesting writes nothing); every occupied cell is a catalog slot held by a student who lists its group; no student holds two cells |
| Pipeline.RunLeftover | backend/schedule.py:130-151 | the leftover map's keys are the roster's ids absent from the grid, in roster order, each once |
| Pipeline.RunSuggestions | backend/schedule.py:135-151 | a run's leftover list is `SoundSuggestions` for its catalog and printed grid: each suggestion is an empty catalog slot; suggestions ascend in (day, batch, index) order and never repeat; each is the first empty catalog slot not yet handed out; a None comes only after every empty slot was suggested |
| Pipeline.CatalogKeysDistinct | backend/schedule.py:19-20 | dictionary keys being unique, the catalog lists each day and each batch once |
| Matching.GreedyIsFeasible | backend/schedule.py:59-71 | the greedy placement uses only created variables, at most one per student and at most one per slot |
| Matching.DigitsDecimal | backend/schedule.py:109 | `str` of a non-negative integer is its decimal numeral: digit characters only, no leading zero, and read back left to right it gives the number |
| Matching.SlotCapacityVacuous | backend/schedule.py:65-71 | when preference days and batches are integers, the slot constraint as written holds for every selection |
| Matching.SlotCapacityCounterexample | backend/schedule.py:59-71 | two students both set to index 0 of group (1, 1) satisfy both constraints as written, yet the corrected slot constraint rejects them |
| Matching.SlotCapacityIsUnitCapacity | backend/schedule.py:65-71 | under the corrected slot constraint, two chosen variables naming the same table slot are the same variable |

## Left out

- Reading `slot.json` and `preferences.json` (lines 8-11) and the printing (lines 155-162) are I/O. The model takes the parsed tables as arguments and returns the grid and the leftover list.
- Timestamp parsing and weights (lines 24-32, 42-51) use ISO-8601 dates and floating point. They do not affect the output. Only the failure of `min` on an empty roster (line 24) is modelled. A missing or unparsable timestamp, which also raises there, is not.
- The objective and the solve (lines 53-57, 74) belong to the external PuLP solver, and their result never reaches the output (lines 88-95 are commented out). Only the variable set and the two constraints are modelled.
- The `start_time` values (lines 139-140) are never used. Only whether each read succeeds is modelled.
- The greedy pass takes preference groups after `str` (line 109). The conversion itself is modelled only where it matters, in `Matching.Str`. A preference entry that is not a two-element list fails to unpack at line 38, in the loop that creates the integer-program variables, so the run stops before any placement; this is not modelled.
- Student ids are dictionary keys, hence distinct. The facts that need this take `DistinctIds` as a precondition instead of deriving it from a JSON object.
- Pipeline.Run: its own contract only bounds the leftover list by the roster. What a run returns and when it fails is stated by `Pipeline.RunFails`, `Pipeline.RunSucceeds`, `Pipeline.RunGrid`, `Pipeline.RunLeftover` and `Pipeline.RunSuggestions`.
- Placement.PlaceStudent: its own contract only states that the shape is kept. What a turn does is stated by `Placement.TurnLeavesOut`, `Placement.TurnPlaces` and `Placement.TurnAborts`.
- `backend/randomize_data.py` generates random test data and writes files. It is not modelled, apart from the fact, used in "## Findings", that it writes days and batches as integers.

## Findings

| source | as written | input that shows it | evidently intended | confidence | as-written member | corrected member |
|---|---|---|---|---|---|---|
| backend/schedule.py:65-71 | The slot constraint sums the variables `(s, d, b, sl)` for which the key is in `x`. Here `d` and `b` are string keys of the slot table, while the keys of `x` hold the preference values as loaded. Preferences written with integer days and batches never match, so every sum is empty. | Preferences as `backend/randomize_data.py` writes them, e.g. two students who both list `[1, 1]`, both with x set to 1 at index 0: both constraints hold, yet slot ("1", "1", 0) holds two students. | At most one student per slot, comparing keys after `str` as the greedy pass does at line 109. | medium; not executed (depends on the preference file holding integers, as the generator writes it) | Matching.SlotCapacityCounterexample | Matching.SlotCapacityIsUnitCapacity |

=== FILE: catalog.dfy ===
/**
 The slot table as loaded from slot.json (day key -> batch key -> per-index
 start times, each level a dictionary in insertion order) and the uniform
 catalog the program derives from it by reading day "1" and its batch "1".
 */
module SlotCatalog {
  import opened Types

  /** One key of a JSON object read into a dictionary, with what it maps
      to; a dictionary is a sequence of entries in insertion order. */
  datatype Entry<V> = Entry(key: Key, contents: V)

  /** A batch: its per-index start times. */
  type BatchEntry = Entry<seq<string>>

  /** A day: its batches, in insertion order. */
  type DayEntry = Entry<seq<BatchEntry>>

  type SlotTable = seq<DayEntry>

  /** `list(d.keys())`. */
  function Keys<V>(es: seq<Entry<V>>): (ks: seq<Key>)
    ensures |ks| == |es|
    ensures forall i :: 0 <= i < |es| ==> ks[i] == es[i].key
  {
    seq(|es|, i requires 0 <= i < |es| => es[i].key)
  }

  /** Keys are unique at every level, as in any dictionary. */
  predicate ValidTable(t: SlotTable)
  {
    && Distinct(Keys(t))
    && forall i :: 0 <= i < |t| ==> Distinct(Keys(t[i].contents))
  }

  /** `d[k]`: what key `k` maps to, or None where Python raises KeyError. */
  function Find<V>(es: seq<Entry<V>>, k: Key): (r: Option<V>)
    ensures r.Some? <==> k in Keys(es)
    ensures r.Some? ==> exists i :: 0 <= i < |es| && es[i].key == k && es[i].contents == r.value
  {
    if |es| == 0 then None
    else if es[0].key == k then Some(es[0].contents)
    else Find(es[1..], k)
  }

  /** `t[d][b]`, or None where either lookup raises. */
  function Lookup(t: SlotTable, d: Key, b: Key): Option<seq<string>>
  {
    match Find(t, d)
    case None => None
    case Some(bs) => Find(bs, b)
  }

  /** The program's schema inference: the days are the table's keys, the
      batches are those of day "1", and the slot count is the length of
      group ("1", "1"); a missing reference day or batch raises. */
  function LoadCatalog(t: SlotTable): (r: Result<Catalog, Error>)
    ensures r == Err(MissingReferenceDay) <==> "1" !in Keys(t)
    ensures r == Err(MissingReferenceBatch) <==> "1" in Keys(t) && Lookup(t, "1", "1").None?
    ensures r.Ok? <==> Lookup(t, "1", "1").Some?
    ensures r.Ok? ==>
      && r.value.days == Keys(t)
      && r.value.batches == Keys(Find(t, "1").value)
      && r.value.slotCount == |Lookup(t, "1", "1").value|
  {
    match Find(t, "1")
    case None => Err(MissingReferenceDay)
    case Some(day1) =>
      match Find(day1, "1")
      case None => Err(MissingReferenceBatch)
      case Some(times) => Ok(Catalog(Keys(t), Keys(day1), |times|))
  }

  /** Whether group (d, b) of the table has at least `n` start times. */
  predicate CoversGroup(t: SlotTable, d: Key, b: Key, n: nat)
  {
    Lookup(t, d, b).Some? && n <= |Lookup(t, d, b).value|
  }

  /** The start-time reads of the nested loop over every day, batch and
      index below `n`: the first group whose batch is missing or whose list
      is shorter than `n` raises. With `n == 0` nothing is read. */
  function CheckStartTimes(t: SlotTable, days: seq<Key>, batches: seq<Key>, n: nat): (r: Option<Error>)
    ensures r.None? <==> n == 0 || forall d, b :: d in days && b in batches ==> CoversGroup(t, d, b, n)
    ensures r.Some? ==> match r.value
      case MissingBatch(d, b) => d in days && b in batches && Lookup(t, d, b).None?
      case MissingStartTime(d, b) => d in days && b in batches && Lookup(t, d, b).Some? && |Lookup(t, d, b).value| < n
      case _ => false
  {
    if n == 0 || |days| == 0 then None
    else match CheckDay(t, days[0], batches, n)
      case Some(e) => Some(e)
      case None => CheckStartTimes(t, days[1..], batches, n)
  }

  function CheckDay(t: SlotTable, d: Key, batches: seq<Key>, n: nat): (r: Option<Error>)
    requires n > 0
    ensures r.None? <==> forall b :: b in batches ==> CoversGroup(t, d, b, n)
    ensures r.Some? ==> match r.value
      case MissingBatch(d', b) => d' == d && b in batches && Lookup(t, d, b).None?
      case MissingStartTime(d', b) => d' == d && b in batches && Lookup(t, d, b).Some? && |Lookup(t, d, b).value| < n
      case _ => false
  {
    if |batches| == 0 then None
    else
      var b := batches[0];
      assert b in batches;
      match Lookup(t, d, b)
      case None =>
        assert !CoversGroup(t, d, b, n);
        Some(MissingBatch(d, b))
      case Some(times) =>
        if |times| < n then
          assert !CoversGroup(t, d, b, n);
          Some(MissingStartTime(d, b))
        else CheckDay(t, d, batches[1..], n)
  }
}

=== FILE: leftover.dfy ===
/**
 The leftover suggester: every slot listed by sorted day, sorted batch and
 ascending index, the ones still empty after the greedy pass kept as a
 queue, and each unplaced student, in order, handed the head of the queue
 until it runs dry.
 */
module Leftover {
  import opened Types
  import opened Order
  import opened Placement

  /** The slots of group (d, b) by ascending index. */
  function GroupSlots(d: Key, b: Key, n: nat): (r: seq<Slot>)
    ensures |r| == n
    ensures forall i :: 0 <= i < n ==> r[i] == Slot(d, b, i)
  {
    seq(n, i requires 0 <= i < n => Slot(d, b, i))
  }

  /** The slots of day `d`, batch by batch in the given order. */
  function DaySlots(d: Key, batches: seq<Key>, n: nat): (r: seq<Slot>)
    ensures forall p :: p in r <==> p.day == d && p.batch in batches && p.index < n
  {
    if |batches| == 0 then []
    else
      var first := GroupSlots(d, batches[0], n);
      assert forall p: Slot :: p in first <==> p.day == d && p.batch == batches[0] && p.index < n by {
        forall p: Slot | p.day == d && p.batch == batches[0] && p.index < n
          ensures p in first
        {
          assert first[p.index] == p;
        }
      }
      assert forall b :: b in batches <==> b == batches[0] || b in batches[1..];
      first + DaySlots(d, batches[1..], n)
  }

  /** The slots of every day in the given order. */
  function SlotsOf(days: seq<Key>, batches: seq<Key>, n: nat): (r: seq<Slot>)
    ensures forall p :: p in r <==> p.day in days && p.batch in batches && p.index < n
  {
    if |days| == 0 then []
    else
      assert forall d :: d in days <==> d == days[0] || d in days[1..];
      DaySlots(days[0], batches, n) + SlotsOf(days[1..], batches, n)
  }

  /** `all_slots_sorted` (the start times it also collects are never used):
      sorted days, sorted batches, ascending indices. */
  function AllSlotsSorted(cat: Catalog): seq<Slot>
  {
    SlotsOf(Sort(cat.days), Sort(cat.batches), cat.slotCount)
  }

  /** Two ascending lists, every element of the first below every element
      of the second, concatenate to an ascending list. */
  lemma AscendingConcat(a: seq<Slot>, b: seq<Slot>)
    requires Ascending(a) && Ascending(b)
    requires forall p, q :: p in a && q in b ==> SlotLess(p, q)
    ensures Ascending(a + b)
  {
    var c := a + b;
    forall i, j | 0 <= i < j < |c|
      ensures SlotLess(c[i], c[j])
    {
      if j < |a| {
        assert c[i] == a[i] && c[j] == a[j];
      } else if i >= |a| {
        assert c[i] == b[i - |a|] && c[j] == b[j - |a|];
      } else {
        assert c[i] in a && c[j] in b;
      }
    }
  }

  lemma {:induction false} DaySlotsAscending(d: Key, batches: seq<Key>, n: nat)
    requires StrictlySorted(batches)
    ensures Ascending(DaySlots(d, batches, n))
    decreases |batches|
  {
    if |batches| > 0 {
      var first := GroupSlots(d, batches[0], n);
      var rest := DaySlots(d, batches[1..], n);
      DaySlotsAscending(d, batches[1..], n);
      forall p, q | p in first && q in rest
        ensures SlotLess(p, q)
      {
        var j :| 0 <= j < |batches[1..]| && batches[1..][j] == q.batch;
        assert StrLess(batches[0], batches[j + 1]);
      }
      AscendingConcat(first, rest);
    }
  }

  lemma {:induction false} SlotsOfAscending(days: seq<Key>, batches: seq<Key>, n: nat)
    requires StrictlySorted(days) && StrictlySorted(batches)
    ensures Ascending(SlotsOf(days, batches, n))
    decreases |days|
  {
    if |days| > 0 {
      var first := DaySlots(days[0], batches, n);
      var rest := SlotsOf(days[1..], batches, n);
      DaySlotsAscending(days[0], batches, n);
      SlotsOfAscending(days[1..], batches, n);
      forall p, q | p in first && q in rest
        ensures SlotLess(p, q)
      {
        var j :| 0 <= j < |days[1..]| && days[1..][j] == q.day;
        assert StrLess(days[0], days[j + 1]);
      }
      AscendingConcat(first, rest);
    }
  }

  /** With distinct day and batch keys the sorted slot list holds every
      slot of the catalog exactly once, in strictly ascending
      (day, batch, index) order. */
  lemma AllSlotsSortedOrdered(cat: Catalog)
    requires Distinct(cat.days) && Distinct(cat.batches)
    ensures Ascending(AllSlotsSorted(cat))
    ensures forall p :: p in AllSlotsSorted(cat) <==>
      p.day in cat.days && p.batch in cat.batches && p.index < cat.slotCount
  {
    SortKeys(cat.days);
    SortKeys(cat.batches);
    SlotsOfAscending(Sort(cat.days), Sort(cat.batches), cat.slotCount);
  }

  /** `empty_slots`: the listed slots whose cell is still empty, in list
      order. */
  function EmptySlots(grid: Grid, slots: seq<Slot>): (r: seq<Slot>)
    ensures forall p :: p in r <==> p in slots && Occupant(grid, p).None?
    ensures SubsequenceOf(r, slots)
  {
    if |slots| == 0 then []
    else
      var rest := EmptySlots(grid, slots[1..]);
      assert forall p :: p in slots <==> p == slots[0] || p in slots[1..];
      if Occupant(grid, slots[0]).None? then
        assert ([slots[0]] + rest)[1..] == rest;
        [slots[0]] + rest
      else rest
  }

  /** Keeping only the empty slots of an ascending list leaves it
      ascending. */
  lemma {:induction false} EmptySlotsAscending(grid: Grid, slots: seq<Slot>)
    requires Ascending(slots)
    ensures Ascending(EmptySlots(grid, slots))
    decreases |slots|
  {
    if |slots| > 0 {
      var rest := EmptySlots(grid, slots[1..]);
      EmptySlotsAscending(grid, slots[1..]);
      if Occupant(grid, slots[0]).None? {
        forall p, q | p in [slots[0]] && q in rest
          ensures SlotLess(p, q)
        {
          var j :| 0 <= j < |slots[1..]| && slots[1..][j] == q;
          assert SlotLess(slots[0], slots[j + 1]);
        }
        AscendingConcat([slots[0]], rest);
      }
    }
  }

  /** The suggestion loop: each unplaced student in order pops the head of
      the queue, or gets None once it is empty. */
  function Suggest(unallocated: seq<StudentId>, queue: seq<Slot>): (r: seq<(StudentId, Option<Slot>)>)
    ensures |r| == |unallocated|
    ensures forall k :: 0 <= k < |r| ==>
      && r[k].0 == unallocated[k]
      && r[k].1 == if k < |queue| then Some(queue[k]) else None
  {
    if |unallocated| == 0 then []
    else if |queue| == 0 then [(unallocated[0], None)] + Suggest(unallocated[1..], queue)
    else [(unallocated[0], Some(queue[0]))] + Suggest(unallocated[1..], queue[1..])
  }

  /** The suggestions for an ascending list of slots: each is a listed slot
      still empty in the grid; they come in strictly ascending order, so no
      slot is suggested twice; once one student gets None, so does every
      later one; and the first min(|unallocated|, |empty|) students get a
      slot. */
  lemma SuggestionsOrdered(grid: Grid, slots: seq<Slot>, unallocated: seq<StudentId>)
    requires Ascending(slots)
    ensures forall k :: 0 <= k < |unallocated| ==>
      (Suggest(unallocated, EmptySlots(grid, slots))[k].1.Some? <==> k < |EmptySlots(grid, slots)|)
    ensures SuggestsEmpty(Listed(slots), grid, Suggest(unallocated, EmptySlots(grid, slots)))
    ensures SuggestionsAscend(Suggest(unallocated, EmptySlots(grid, slots)))
    ensures SuggestionsUnrepeated(Suggest(unallocated, EmptySlots(grid, slots)))
  {
    var empty := EmptySlots(grid, slots);
    EmptySlotsAscending(grid, slots);
    AscendingIsDistinct(empty);
    var r := Suggest(unallocated, empty);
    forall k | 0 <= k < |r| && r[k].1.Some?
      ensures r[k].1.value in Listed(slots) && Occupant(grid, r[k].1.value).None?
    {
      assert empty[k] in empty;
    }
  }

  /** Each suggestion is an available slot whose cell is empty. */
  ghost predicate SuggestsEmpty(avail: iset<Slot>, grid: Grid, r: seq<(StudentId, Option<Slot>)>)
  {
    forall t :: 0 <= t < |r| && r[t].1.Some? ==>
      r[t].1.value in avail && Occupant(grid, r[t].1.value).None?
  }

  /** Suggestions strictly ascend in (day, batch, index) order, and once a
      student gets None every later student does too. */
  predicate SuggestionsAscend(r: seq<(StudentId, Option<Slot>)>)
  {
    forall t, t' :: 0 <= t < t' < |r| && r[t'].1.Some? ==>
      r[t].1.Some? && SlotLess(r[t].1.value, r[t'].1.value)
  }

  /** No slot is suggested to two students. */
  predicate SuggestionsUnrepeated(r: seq<(StudentId, Option<Slot>)>)
  {
    forall t, t' :: 0 <= t < |r| && 0 <= t' < |r| && t != t' && r[t].1.Some? ==> r[t].1 != r[t'].1
  }

  /** A student gets None only once every available empty slot has gone to
      an earlier student. */
  ghost predicate NoneOnlyWhenSpent(avail: iset<Slot>, grid: Grid, r: seq<(StudentId, Option<Slot>)>)
  {
    forall t, p :: 0 <= t < |r| && r[t].1.None? && p in avail && Occupant(grid, p).None? ==>
      exists t' :: 0 <= t' < t && r[t'].1 == Some(p)
  }

  /** Each suggestion is the first available empty slot not yet handed out:
      every available empty slot below it went to an earlier student. */
  ghost predicate TakesFirstFree(avail: iset<Slot>, grid: Grid, r: seq<(StudentId, Option<Slot>)>)
  {
    forall t, q :: (0 <= t < |r| && r[t].1.Some? && q in avail && Occupant(grid, q).None?
                    && SlotLess(q, r[t].1.value)) ==>
      exists t' :: 0 <= t' < t && r[t'].1 == Some(q)
  }

  /** The slots of the catalog, and the slots of a list, as sets. */
  ghost function CatalogSlots(cat: Catalog): iset<Slot>
  {
    iset p | CatalogSlot(cat, p)
  }

  ghost function Listed(slots: seq<Slot>): iset<Slot>
  {
    iset p | p in slots
  }

  /** What a leftover list owes the grid, given the slots it may suggest. */
  ghost predicate SoundOver(avail: iset<Slot>, grid: Grid, r: seq<(StudentId, Option<Slot>)>)
  {
    && SuggestsEmpty(avail, grid, r)
    && SuggestionsAscend(r)
    && SuggestionsUnrepeated(r)
    && NoneOnlyWhenSpent(avail, grid, r)
    && TakesFirstFree(avail, grid, r)
  }

  /** What a leftover list owes the catalog and the grid: each suggestion is
      a catalog slot left empty, suggestions ascend in (day, batch, index)
      order and never repeat, each is the first empty catalog slot not yet
      handed out, and a student gets None only once every empty catalog slot
      has gone to an earlier student. */
  ghost predicate SoundSuggestions(cat: Catalog, grid: Grid, r: seq<(StudentId, Option<Slot>)>)
  {
    SoundOver(CatalogSlots(cat), grid, r)
  }

  /** Over a catalog with distinct keys the suggestions are sound. */
  lemma CatalogSuggestions(cat: Catalog, grid: Grid, unallocated: seq<StudentId>)
    requires Distinct(cat.days) && Distinct(cat.batches)
    ensures SoundSuggestions(cat, grid, Suggest(unallocated, EmptySlots(grid, AllSlotsSorted(cat))))
  {
    var slots := AllSlotsSorted(cat);
    AllSlotsSortedOrdered(cat);
    ListedSuggestions(grid, slots, unallocated);
    assert Listed(slots) == CatalogSlots(cat);
  }

  /** The suggestions drawn from an ascending list are sound over that
      list. */
  lemma ListedSuggestions(grid: Grid, slots: seq<Slot>, unallocated: seq<StudentId>)
    requires Ascending(slots)
    ensures SoundOver(Listed(slots), grid, Suggest(unallocated, EmptySlots(grid, slots)))
  {
    SuggestionsOrdered(grid, slots, unallocated);
    QueueSpentBeforeNone(grid, slots, unallocated);
    NoSkip(grid, slots, unallocated);
  }

  /** `pop(0)` on an ascending queue hands out the first empty slot still
      free: any empty listed slot below a student's suggestion went to an
      earlier student. */
  lemma NoSkip(grid: Grid, slots: seq<Slot>, unallocated: seq<StudentId>)
    requires Ascending(slots)
    ensures TakesFirstFree(Listed(slots), grid, Suggest(unallocated, EmptySlots(grid, slots)))
  {
    var empty := EmptySlots(grid, slots);
    EmptySlotsAscending(grid, slots);
    var r := Suggest(unallocated, empty);
    forall t, q | 0 <= t < |r| && r[t].1.Some? && q in Listed(slots) && Occupant(grid, q).None?
                  && SlotLess(q, r[t].1.value)
      ensures exists t' :: 0 <= t' < t && r[t'].1 == Some(q)
    {
      var i :| 0 <= i < |empty| && empty[i] == q;
      if i == t {
        SlotLessIrreflexive(q);
        assert false;
      } else if i > t {
        SlotLessTransitive(q, empty[t], q);
        SlotLessIrreflexive(q);
        assert false;
      }
      assert r[i].1 == Some(q);
    }
  }

  /** A student handed None comes after every empty listed slot has been
      handed out. */
  lemma QueueSpentBeforeNone(grid: Grid, slots: seq<Slot>, unallocated: seq<StudentId>)
    ensures NoneOnlyWhenSpent(Listed(slots), grid, Suggest(unallocated, EmptySlots(grid, slots)))
  {
    var empty := EmptySlots(grid, slots);
    var r := Suggest(unallocated, empty);
    forall t, p | 0 <= t < |r| && r[t].1.None? && p in Listed(slots) && Occupant(grid, p).None?
      ensures exists t' :: 0 <= t' < t && r[t'].1 == Some(p)
    {
      var i :| 0 <= i < |empty| && empty[i] == p;
      assert r[i].1 == Some(p);
    }
  }
}

=== FILE: matching.dfy ===
/**
 The integer program the scheduler builds before its greedy pass: one 0/1
 variable per (student, preferred group, index), at most one chosen
 variable per student and at most one per slot. Its solution never reaches
 the output; what is modelled is the variable set, the two constraints, and
 the fact that the greedy placement is a feasible point of them.
 */
module Matching {
  import opened Types
  import opened Placement
  import opened PlacementFacts

  /** The decision variable x[(s, d, b, sl)]. */
  datatype Var = Var(student: StudentId, group: Group, index: nat)

  /** Some student with id `x` lists group `g`. */
  predicate ListedBy(students: seq<Student>, x: StudentId, g: Group)
  {
    exists k :: 0 <= k < |students| && students[k].id == x && g in students[k].prefs
  }

  /** Some student with id `x` was placed at slot `p`. */
  predicate PlacedAt(students: seq<Student>, placements: seq<Option<Slot>>, x: StudentId, p: Slot)
    requires |placements| == |students|
  {
    exists k :: 0 <= k < |students| && students[k].id == x && placements[k] == Some(p)
  }

  /** The variables created: every index below `n` of every group a student
      lists, and nothing for groups nobody listed. */
  function Variables(students: seq<Student>, n: nat): (vs: set<Var>)
    ensures forall v: Var :: v in vs <==> v.index < n && ListedBy(students, v.student, v.group)
  {
    var vs := set k, g, i | 0 <= k < |students| && g in students[k].prefs && 0 <= i < n :: Var(students[k].id, g, i);
    forall v: Var | v.index < n && ListedBy(students, v.student, v.group)
      ensures v in vs
    {
      var k :| 0 <= k < |students| && students[k].id == v.student && v.group in students[k].prefs;
      assert v == Var(students[k].id, v.group, v.index);
    }
    vs
  }

  /** A 0/1 assignment, given as the set of variables set to 1, that keeps
      to the variables created, sets at most one per student (constraint 1)
      and at most one per slot (constraint 2). */
  ghost predicate Feasible(sel: set<Var>, vars: set<Var>)
  {
    && sel <= vars
    && (forall v, w :: v in sel && w in sel && v.student == w.student ==> v == w)
    && (forall v, w :: v in sel && w in sel && v.group == w.group && v.index == w.index ==> v == w)
  }

  function SlotOf(v: Var): Slot
  {
    Slot(v.group.day, v.group.batch, v.index)
  }

  /** The variables the greedy placements would set to 1. */
  function Selection(students: seq<Student>, placements: seq<Option<Slot>>): (sel: set<Var>)
    requires |placements| == |students|
    ensures forall v: Var :: v in sel <==> PlacedAt(students, placements, v.student, SlotOf(v))
  {
    var sel := set k | 0 <= k < |students| && placements[k].Some? ::
      Var(students[k].id, GroupOf(placements[k].value), placements[k].value.index);
    forall v: Var | PlacedAt(students, placements, v.student, SlotOf(v))
      ensures v in sel
    {
      var k :| 0 <= k < |students| && students[k].id == v.student && placements[k] == Some(SlotOf(v));
      assert v == Var(students[k].id, GroupOf(placements[k].value), placements[k].value.index);
    }
    sel
  }

  /** With distinct student ids the greedy placement is a feasible point of
      the integer program. */
  lemma GreedyIsFeasible(cat: Catalog, students: seq<Student>)
    requires DistinctIds(students) && Greedy(cat, students).Ok?
    ensures var o := Greedy(cat, students).value;
      Feasible(Selection(students, o.placements), Variables(students, cat.slotCount))
  {
    var o := Greedy(cat, students).value;
    var sel := Selection(students, o.placements);
    var vars := Variables(students, cat.slotCount);
    GreedyConsistent(cat, students);
    forall v | v in sel
      ensures v in vars
    {
      var k :| 0 <= k < |students| && students[k].id == v.student && o.placements[k] == Some(SlotOf(v));
      var p := o.placements[k].value;
      assert Occupant(o.state.grid, p).Some?;
      assert GroupOf(p) == v.group;
    }
    forall v, w | v in sel && w in sel && (v.student == w.student || (v.group == w.group && v.index == w.index))
      ensures v == w
    {
      var k :| 0 <= k < |students| && students[k].id == v.student && o.placements[k] == Some(SlotOf(v));
      var k' :| 0 <= k' < |students| && students[k'].id == w.student && o.placements[k'] == Some(SlotOf(w));
      assert k == k';
    }
  }

  /** A preference entry as it arrives from JSON: the generator writes the
      day and batch as integers, while slot-table keys are always strings. */
  datatype PyKey = PInt(i: int) | PStr(s: string)

  function DigitChar(d: nat): char
    requires d < 10
  {
    ('0' as int + d) as char
  }

  function Digits(n: nat): (s: string)
    ensures |s| > 0
    decreases n
  {
    if n < 10 then [DigitChar(n)] else Digits(n / 10) + [DigitChar(n % 10)]
  }

  /** Reads a string of decimal digits left to right, most significant
      first. */
  ghost function DecimalValue(s: string): int
  {
    if |s| == 0 then 0
    else DecimalValue(s[..|s| - 1]) * 10 + (s[|s| - 1] as int - '0' as int)
  }

  /** `str` on a non-negative integer is its decimal numeral: digit
      characters only, no leading zero, and it reads back to the number. */
  lemma {:induction false} DigitsDecimal(n: nat)
    ensures forall i :: 0 <= i < |Digits(n)| ==> '0' <= Digits(n)[i] <= '9'
    ensures n > 0 ==> Digits(n)[0] != '0'
    ensures DecimalValue(Digits(n)) == n
    decreases n
  {
    var s := Digits(n);
    if n >= 10 {
      DigitsDecimal(n / 10);
      assert s[..|s| - 1] == Digits(n / 10);
      assert s[0] == Digits(n / 10)[0];
    }
  }

  /** Python's `str` on a key. */
  function Str(k: PyKey): (s: string)
    ensures k.PStr? ==> s == k.s
    ensures k.PInt? && k.i >= 0 ==> s == Digits(k.i)
  {
    match k
    case PStr(s) => s
    case PInt(i) => if i < 0 then "-" + Digits(-i) else Digits(i)
  }

  /** A decision variable keyed by the raw preference values. */
  datatype RawVar = RawVar(student: StudentId, day: PyKey, batch: PyKey, index: nat)

  /** The chosen variables summed by constraint 2 for slot (d, b, sl) as
      written: the membership test compares the slot table's string keys
      with the raw preference values. */
  function SlotTermsAsWritten(sel: set<RawVar>, d: Key, b: Key, sl: nat): (terms: set<RawVar>)
    ensures forall v :: v in terms <==> v in sel && v.day == PStr(d) && v.batch == PStr(b) && v.index == sl
  {
    set v | v in sel && v.day == PStr(d) && v.batch == PStr(b) && v.index == sl
  }

  /** The same sum with the preference values converted by `str`, as the
      greedy pass converts them. */
  function SlotTerms(sel: set<RawVar>, d: Key, b: Key, sl: nat): (terms: set<RawVar>)
    ensures forall v :: v in terms <==> v in sel && Str(v.day) == d && Str(v.batch) == b && v.index == sl
  {
    set v | v in sel && Str(v.day) == d && Str(v.batch) == b && v.index == sl
  }

  /** Constraint 2 as written, for the chosen set `sel`. */
  ghost predicate SlotCapacityAsWritten(sel: set<RawVar>, days: seq<Key>, batches: seq<Key>, n: nat)
  {
    forall d, b, sl: nat :: d in days && b in batches && sl < n ==> |SlotTermsAsWritten(sel, d, b, sl)| <= 1
  }

  /** Constraint 2 with the keys compared after `str`. */
  ghost predicate SlotCapacity(sel: set<RawVar>, days: seq<Key>, batches: seq<Key>, n: nat)
  {
    forall d, b, sl: nat :: d in days && b in batches && sl < n ==> |SlotTerms(sel, d, b, sl)| <= 1
  }

  /** Constraint 1 for the chosen set: at most one variable per student. */
  ghost predicate OnePerStudent(sel: set<RawVar>)
  {
    forall v, w :: v in sel && w in sel && v.student == w.student ==> v == w
  }

  /** As written, constraint 2 never binds when the preferences hold
      integers: every sum it bounds is empty. */
  lemma SlotCapacityVacuous(sel: set<RawVar>, days: seq<Key>, batches: seq<Key>, n: nat)
    requires forall v :: v in sel ==> v.day.PInt? && v.batch.PInt?
    ensures SlotCapacityAsWritten(sel, days, batches, n)
  {
    forall d, b, sl: nat | d in days && b in batches && sl < n
      ensures |SlotTermsAsWritten(sel, d, b, sl)| <= 1
    {
      assert SlotTermsAsWritten(sel, d, b, sl) == {};
    }
  }

  /** Two students who both listed day 1, batch 1, both set to index 0. */
  const Overbooked: set<RawVar> := {RawVar("student1", PInt(1), PInt(1), 0), RawVar("student2", PInt(1), PInt(1), 0)}

  /** Constraints 1 and 2 as written accept `Overbooked`, although slot
      ("1", "1", 0) then holds two students, which the corrected constraint
      2 rejects. */
  lemma SlotCapacityCounterexample()
    ensures OnePerStudent(Overbooked)
    ensures SlotCapacityAsWritten(Overbooked, ["1"], ["1"], 1)
    ensures !SlotCapacity(Overbooked, ["1"], ["1"], 1)
  {
    SlotCapacityVacuous(Overbooked, ["1"], ["1"], 1);
    OverbookedSlot();
  }

  lemma OverbookedSlot()
    ensures |SlotTerms(Overbooked, "1", "1", 0)| > 1
  {
    var v1 := RawVar("student1", PInt(1), PInt(1), 0);
    var v2 := RawVar("student2", PInt(1), PInt(1), 0);
    assert Str(PInt(1)) == "1" by {
      assert DigitChar(1) == '1';
    }
    assert v1 != v2;
    assert {v1, v2} <= SlotTerms(Overbooked, "1", "1", 0);
    SubsetCard({v1, v2}, SlotTerms(Overbooked, "1", "1", 0));
  }

  /** Corrected, constraint 2 gives each slot of the table at most one
      student: two chosen variables that name the same slot after `str`
      are the same variable. */
  lemma SlotCapacityIsUnitCapacity(sel: set<RawVar>, days: seq<Key>, batches: seq<Key>, n: nat)
    requires SlotCapacity(sel, days, batches, n)
    ensures forall v, w ::
      (&& v in sel && w in sel
       && Str(v.day) in days && Str(v.batch) in batches && v.index < n
       && Str(v.day) == Str(w.day) && Str(v.batch) == Str(w.batch) && v.index == w.index)
      ==> v == w
  {
    forall v, w |
      && v in sel && w in sel
      && Str(v.day) in days && Str(v.batch) in batches && v.index < n
      && Str(v.day) == Str(w.day) && Str(v.batch) == Str(w.batch) && v.index == w.index
      ensures v == w
    {
      var terms := SlotTerms(sel, Str(v.day), Str(v.batch), v.index);
      if v != w {
        assert {v, w} <= terms;
        assert |{v, w}| == 2;
        SubsetCard({v, w}, terms);
      }
    }
  }

  lemma SubsetCard<T>(a: set<T>, b: set<T>)
    requires a <= b
    ensures |a| <= |b|
  {
    assert b == a + (b - a);
  }
}

=== FILE: order.dfy ===
/**
 The orders the scheduler sorts by: Python's `<` on `str` (code-point
 lexicographic, a proper prefix first), the (day, batch, index) order on
 slots, and `sorted` on a list of keys.
 */
module Order {
  import opened Types

  /** Python's `a < b` on strings. */
  predicate StrLess(a: string, b: string)
    decreases |a|
  {
    if |a| == 0 then |b| > 0
    else if |b| == 0 then false
    else if a[0] != b[0] then a[0] < b[0]
    else StrLess(a[1..], b[1..])
  }

  /** An independent reading of the same order: `a` is a proper prefix of
      `b`, or the first position where they differ holds a smaller code point
      in `a`. */
  ghost predicate LexBefore(a: string, b: string)
  {
    || (|a| < |b| && a == b[..|a|])
    || exists i :: 0 <= i < |a| && i < |b| && a[..i] == b[..i] && a[i] < b[i]
  }

  lemma {:induction false} StrLessIsLexBefore(a: string, b: string)
    ensures StrLess(a, b) <==> LexBefore(a, b)
    decreases |a|
  {
    if |a| == 0 {
      assert |b| > 0 ==> a == b[..|a|];
    } else if |b| == 0 {
    } else if a[0] != b[0] {
      assert a[..0] == b[..0];
      HeadsAgree(a, b);
    } else {
      StrLessIsLexBefore(a[1..], b[1..]);
      if LexBefore(a[1..], b[1..]) {
        if |a[1..]| < |b[1..]| && a[1..] == b[1..][..|a[1..]|] {
          assert a == b[..|a|];
        } else {
          var i :| 0 <= i < |a[1..]| && i < |b[1..]| && a[1..][..i] == b[1..][..i] && a[1..][i] < b[1..][i];
          assert a[..i + 1] == [a[0]] + a[1..][..i];
          assert b[..i + 1] == [b[0]] + b[1..][..i];
          assert a[i + 1] < b[i + 1];
        }
      }
      if LexBefore(a, b) {
        if |a| < |b| && a == b[..|a|] {
          assert a[1..] == b[1..][..|a[1..]|];
        } else {
          var i :| 0 <= i < |a| && i < |b| && a[..i] == b[..i] && a[i] < b[i];
          assert i > 0;
          assert a[1..][..i - 1] == a[..i][1..] == b[..i][1..] == b[1..][..i - 1];
          assert a[1..][i - 1] < b[1..][i - 1];
        }
      }
    }
  }

  /** Two non-empty strings with a common non-empty prefix start alike. */
  lemma HeadsAgree(a: string, b: string)
    requires |a| > 0 && |b| > 0
    ensures forall i :: 0 < i <= |a| && i <= |b| && a[..i] == b[..i] ==> a[0] == b[0]
    ensures |a| < |b| && a == b[..|a|] ==> a[0] == b[0]
  {
    forall i | 0 < i <= |a| && i <= |b| && a[..i] == b[..i]
      ensures a[0] == b[0]
    {
      assert a[..i][0] == b[..i][0];
    }
  }

  lemma {:induction false} StrLessIrreflexive(a: string)
    ensures !StrLess(a, a)
    decreases |a|
  {
    if |a| > 0 {
      StrLessIrreflexive(a[1..]);
    }
  }

  lemma {:induction false} StrLessTransitive(a: string, b: string, c: string)
    requires StrLess(a, b) && StrLess(b, c)
    ensures StrLess(a, c)
    decreases |a|
  {
    if |a| > 0 && |b| > 0 && |c| > 0 && a[0] == b[0] && b[0] == c[0] {
      StrLessTransitive(a[1..], b[1..], c[1..]);
    }
  }

  lemma {:induction false} StrLessTotal(a: string, b: string)
    requires a != b
    ensures StrLess(a, b) || StrLess(b, a)
    decreases |a|
  {
    if |a| > 0 && |b| > 0 && a[0] == b[0] {
      assert a == [a[0]] + a[1..] && b == [b[0]] + b[1..];
      StrLessTotal(a[1..], b[1..]);
    }
  }

  lemma StrLessAsymmetric(a: string, b: string)
    requires StrLess(a, b)
    ensures !StrLess(b, a)
  {
    if StrLess(b, a) {
      StrLessTransitive(a, b, a);
      StrLessIrreflexive(a);
    }
  }

  /** Non-decreasing in Python's string order, as `sorted` leaves it. */
  predicate Sorted(s: seq<string>)
  {
    forall i, j :: 0 <= i < j < |s| ==> !StrLess(s[j], s[i])
  }

  /** Strictly increasing in Python's string order. */
  predicate StrictlySorted(s: seq<string>)
  {
    forall i, j :: 0 <= i < j < |s| ==> StrLess(s[i], s[j])
  }

  function Insert(x: string, s: seq<string>): (r: seq<string>)
    ensures multiset(r) == multiset(s) + multiset{x}
  {
    if |s| == 0 then [x]
    else if StrLess(s[0], x) then
      assert s == [s[0]] + s[1..];
      [s[0]] + Insert(x, s[1..])
    else [x] + s
  }

  lemma {:induction false} InsertSorted(x: string, s: seq<string>)
    requires Sorted(s)
    ensures Sorted(Insert(x, s))
  {
    if |s| == 0 {
    } else if StrLess(s[0], x) {
      InsertSorted(x, s[1..]);
      InsertAfterHead(x, s);
    } else {
      NotBelowHead(x, s);
    }
  }

  /** `x` is no larger than the head of a sorted list, so none of it. */
  lemma NotBelowHead(x: string, s: seq<string>)
    requires Sorted(s) && |s| > 0 && !StrLess(s[0], x)
    ensures forall k :: 0 <= k < |s| ==> !StrLess(s[k], x)
  {
    forall k | 0 <= k < |s|
      ensures !StrLess(s[k], x)
    {
      if StrLess(s[k], x) && s[0] != s[k] {
        StrLessTotal(s[0], s[k]);
        StrLessTransitive(s[0], s[k], x);
      }
    }
  }

  /** The head of a sorted list, smaller than `x`, stays in front of the
      insertion of `x` into the tail. */
  lemma InsertAfterHead(x: string, s: seq<string>)
    requires Sorted(s) && |s| > 0 && StrLess(s[0], x) && Sorted(Insert(x, s[1..]))
    ensures Sorted([s[0]] + Insert(x, s[1..]))
  {
    var rest := Insert(x, s[1..]);
    StrLessAsymmetric(s[0], x);
    forall k | 0 <= k < |rest|
      ensures !StrLess(rest[k], s[0])
    {
      assert rest[k] in multiset(rest);
      assert rest[k] == x || rest[k] in s[1..];
    }
  }

  lemma {:induction false} InsertDistinct(x: string, s: seq<string>)
    requires Distinct(s) && x !in s
    ensures Distinct(Insert(x, s))
  {
    if |s| > 0 && StrLess(s[0], x) {
      var rest := Insert(x, s[1..]);
      InsertDistinct(x, s[1..]);
      assert s[0] !in s[1..];
      assert s[0] !in multiset(rest);
    }
  }

  /** Python's `sorted` on a list of strings: an ordered permutation. */
  function Sort(s: seq<string>): (r: seq<string>)
    ensures multiset(r) == multiset(s)
    ensures Sorted(r)
    ensures Distinct(s) ==> Distinct(r)
  {
    if |s| == 0 then []
    else
      assert s == [s[0]] + s[1..];
      var rest := Sort(s[1..]);
      InsertSorted(s[0], rest);
      if Distinct(s) then
        assert s[0] !in multiset(rest);
        InsertDistinct(s[0], rest);
        Insert(s[0], rest)
      else Insert(s[0], rest)
  }

  lemma SortedDistinctIsStrict(s: seq<string>)
    requires Sorted(s) && Distinct(s)
    ensures StrictlySorted(s)
  {
    forall i, j | 0 <= i < j < |s|
      ensures StrLess(s[i], s[j])
    {
      StrLessTotal(s[i], s[j]);
    }
  }

  /** Sorting keeps exactly the keys it was given. */
  lemma SortMembers(s: seq<string>)
    ensures forall x :: x in Sort(s) <==> x in s
  {
    var r := Sort(s);
    forall x
      ensures x in r <==> x in s
    {
      assert x in r <==> x in multiset(r);
      assert x in s <==> x in multiset(s);
    }
  }

  /** Sorting distinct keys gives the same keys in strictly increasing order. */
  lemma SortKeys(s: seq<string>)
    requires Distinct(s)
    ensures StrictlySorted(Sort(s))
    ensures forall x :: x in Sort(s) <==> x in s
  {
    SortedDistinctIsStrict(Sort(s));
    SortMembers(s);
  }

  /** Lexicographic order on (day, batch, index), the order the nested loops
      over sorted days, sorted batches and ascending indices produce. */
  predicate SlotLess(p: Slot, q: Slot)
  {
    || StrLess(p.day, q.day)
    || (p.day == q.day && StrLess(p.batch, q.batch))
    || (p.day == q.day && p.batch == q.batch && p.index < q.index)
  }

  lemma SlotLessIrreflexive(p: Slot)
    ensures !SlotLess(p, p)
  {
    StrLessIrreflexive(p.day);
    StrLessIrreflexive(p.batch);
  }

  lemma SlotLessTransitive(p: Slot, q: Slot, r: Slot)
    requires SlotLess(p, q) && SlotLess(q, r)
    ensures SlotLess(p, r)
  {
    if StrLess(p.day, q.day) && StrLess(q.day, r.day) {
      StrLessTransitive(p.day, q.day, r.day);
    }
    if StrLess(p.batch, q.batch) && StrLess(q.batch, r.batch) {
      StrLessTransitive(p.batch, q.batch, r.batch);
    }
  }

  predicate Ascending(s: seq<Slot>)
  {
    forall i, j :: 0 <= i < j < |s| ==> SlotLess(s[i], s[j])
  }

  /** A strictly ascending slot list never repeats a slot. */
  lemma AscendingIsDistinct(s: seq<Slot>)
    requires Ascending(s)
    ensures Distinct(s)
  {
    forall i, j | 0 <= i < j < |s|
      ensures s[i] != s[j]
    {
      if s[i] == s[j] {
        SlotLessIrreflexive(s[i]);
      }
    }
  }
}

=== FILE: pipeline.dfy ===
/**
 The whole deterministic pipeline, in the order the program reaches each
 step: the catalog is read from the slot table, the earliest submission time
 is taken over the roster, the greedy pass fills the grid, every catalog
 slot's start time is read while the sorted slot list is built, and the
 unplaced students receive their suggestions.
 */
module Pipeline {
  import opened Types
  import opened Order
  import opened SlotCatalog
  import opened Placement
  import opened PlacementFacts
  import opened Leftover

  /** What the program prints: the filled grid and, for every unplaced
      student in input order, the suggested slot or None. */
  datatype Schedule = Schedule(grid: Grid, leftover: seq<(StudentId, Option<Slot>)>)

  function LeftoverIds(sched: Schedule): (ids: seq<StudentId>)
    ensures |ids| == |sched.leftover|
    ensures forall t :: 0 <= t < |ids| ==> ids[t] == sched.leftover[t].0
  {
    seq(|sched.leftover|, t requires 0 <= t < |sched.leftover| => sched.leftover[t].0)
  }

  /** The run of the program on a slot table and a roster. The first failing
      step decides the error: a missing reference day or batch, an empty
      roster (the minimum over no timestamps), a preference naming a group
      outside the catalog, then a group whose start times run short. */
  function Run(table: SlotTable, students: seq<Student>): (r: Result<Schedule, Error>)
    ensures r.Ok? ==> |r.value.leftover| <= |students|
  {
    match LoadCatalog(table)
    case Err(e) => Err(e)
    case Ok(cat) =>
      if |students| == 0 then Err(NoStudents)
      else match Greedy(cat, students)
        case Err(e) => Err(e)
        case Ok(o) =>
          match CheckStartTimes(table, Sort(cat.days), Sort(cat.batches), cat.slotCount)
          case Some(e) => Err(e)
          case None =>
            var u := Unallocated(students, Allocated(students, o.placements));
            assert SubsequenceOf(u, Ids(students));
            SubsequenceShorter(u, Ids(students));
            Ok(Schedule(o.state.grid, Suggest(u, EmptySlots(o.state.grid, AllSlotsSorted(cat)))))
  }

  lemma {:induction false} SubsequenceShorter<T>(a: seq<T>, b: seq<T>)
    requires SubsequenceOf(a, b)
    ensures |a| <= |b|
    decreases |b|
  {
    if |b| > 0 {
      if |a| > 0 && a[0] == b[0] && SubsequenceOf(a[1..], b[1..]) {
        SubsequenceShorter(a[1..], b[1..]);
      } else {
        SubsequenceShorter(a, b[1..]);
      }
    }
  }

  /** Every error names its cause in the input. */
  lemma RunFails(table: SlotTable, students: seq<Student>)
    requires Run(table, students).Err?
    ensures var e := Run(table, students).error;
      && (e.MissingReferenceDay? ==> "1" !in Keys(table))
      && (e.MissingReferenceBatch? ==> "1" in Keys(table) && Lookup(table, "1", "1").None?)
      && (e.NoStudents? ==> Lookup(table, "1", "1").Some? && |students| == 0)
      && (e.UnknownGroup? ==>
            && Lookup(table, "1", "1").Some?
            && (e.group.day !in Keys(table) || e.group.batch !in Keys(Find(table, "1").value))
            && exists k :: 0 <= k < |students| && students[k].id == e.student && e.group in students[k].prefs)
      && (e.MissingBatch? ==>
            && Lookup(table, "1", "1").Some?
            && e.day in Keys(table) && e.batch in Keys(Find(table, "1").value)
            && Lookup(table, e.day, e.batch).None?)
      && (e.MissingStartTime? ==>
            && Lookup(table, "1", "1").Some?
            && e.day in Keys(table) && e.batch in Keys(Find(table, "1").value)
            && Lookup(table, e.day, e.batch).Some?
            && |Lookup(table, e.day, e.batch).value| < |Lookup(table, "1", "1").value|)
  {
    if LoadCatalog(table).Ok? && |students| > 0 {
      var cat := LoadCatalog(table).value;
      if Greedy(cat, students).Err? {
        GreedyErrorSource(cat, students);
        var g := Greedy(cat, students).error.group;
        assert Group(g.day, g.batch) == g;
      } else {
        SortMembers(cat.days);
        SortMembers(cat.batches);
      }
    }
  }

  /** A sufficient condition for success (not the converse of `RunFails`:
      with a reference count of 0, for instance, missing batches go
      unread): with the reference group present, a non-empty roster,
      preferences inside the catalog and every group as long as the
      reference group, the run succeeds. */
  lemma RunSucceeds(table: SlotTable, students: seq<Student>)
    requires Lookup(table, "1", "1").Some? && |students| > 0
    requires forall k, g :: 0 <= k < |students| && g in students[k].prefs ==>
      g.day in Keys(table) && g.batch in Keys(Find(table, "1").value)
    requires forall d, b :: d in Keys(table) && b in Keys(Find(table, "1").value) ==>
      CoversGroup(table, d, b, |Lookup(table, "1", "1").value|)
    ensures Run(table, students).Ok?
  {
    var cat := LoadCatalog(table).value;
    forall k, g | 0 <= k < |students| && g in students[k].prefs
      ensures g in Groups(cat)
    {
      assert Group(g.day, g.batch) == g;
    }
    GreedySucceeds(cat, students);
    SortMembers(cat.days);
    SortMembers(cat.batches);
  }

  /** A successful run, spelled out: the catalog read, the greedy outcome,
      and the output built from them. */
  lemma RunUnfold(table: SlotTable, students: seq<Student>) returns (cat: Catalog, o: Outcome)
    requires Run(table, students).Ok?
    ensures LoadCatalog(table) == Ok(cat) && Greedy(cat, students) == Ok(o)
    ensures Run(table, students).value.grid == o.state.grid
    ensures Run(table, students).value.leftover
      == Suggest(Unallocated(students, Allocated(students, o.placements)), EmptySlots(o.state.grid, AllSlotsSorted(cat)))
  {
    cat := LoadCatalog(table).value;
    o := Greedy(cat, students).value;
  }

  /** Dictionary keys are unique, so the catalog lists each day and batch
      once. */
  lemma CatalogKeysDistinct(table: SlotTable)
    requires ValidTable(table) && LoadCatalog(table).Ok?
    ensures Distinct(LoadCatalog(table).value.days)
    ensures Distinct(LoadCatalog(table).value.batches)
  {
    var i :| 0 <= i < |table| && table[i].key == "1" && table[i].contents == Find(table, "1").value;
  }

  /** The printed grid is the grid the greedy pass left: the suggestion step
      writes nothing. Every occupied cell is a catalog slot held by a student
      who listed its group, and no student holds two cells. */
  lemma RunGrid(table: SlotTable, students: seq<Student>)
    requires DistinctIds(students) && Run(table, students).Ok?
    ensures var cat := LoadCatalog(table).value;
      var grid := Run(table, students).value.grid;
      && Greedy(cat, students).Ok?
      && grid == Greedy(cat, students).value.state.grid
      && (forall p :: Occupant(grid, p).Some? ==>
            && CatalogSlot(cat, p)
            && exists k :: 0 <= k < |students| && Occupant(grid, p) == Some(students[k].id)
                           && GroupOf(p) in students[k].prefs)
      && (forall p, q :: Occupant(grid, p).Some? && Occupant(grid, p) == Occupant(grid, q) ==> p == q)
  {
    var cat, o := RunUnfold(table, students);
    GreedyConsistent(cat, students);
    EachStudentAtMostOnce(cat, students);
    forall p | Occupant(o.state.grid, p).Some?
      ensures CatalogSlot(cat, p)
      ensures exists k :: 0 <= k < |students| && Occupant(o.state.grid, p) == Some(students[k].id)
                          && GroupOf(p) in students[k].prefs
    {
      var k :| 0 <= k < |students| && o.placements[k] == Some(p) && Some(students[k].id) == Occupant(o.state.grid, p);
      assert GroupOf(p) in Groups(cat);
    }
  }

  /** The leftover list names exactly the students absent from the grid,
      each once, in input order. */
  lemma RunLeftover(table: SlotTable, students: seq<Student>)
    requires DistinctIds(students) && Run(table, students).Ok?
    ensures var sched := Run(table, students).value;
      && SubsequenceOf(LeftoverIds(sched), Ids(students))
      && Distinct(LeftoverIds(sched))
      && forall k :: 0 <= k < |students| ==>
           (students[k].id in LeftoverIds(sched) <==> !InGrid(sched.grid, students[k].id))
  {
    var cat, o := RunUnfold(table, students);
    var u := Unallocated(students, Allocated(students, o.placements));
    assert LeftoverIds(Run(table, students).value) == u;
    UnallocatedPartition(cat, students);
  }

  /** The leftover list of a run is sound for the catalog and the printed
      grid (`SoundSuggestions`): each suggestion is a catalog slot left
      empty; suggestions ascend in (day, batch, index) order and never
      repeat; each is the first empty slot not yet handed out; and a student
      gets None only once every empty slot has gone to an earlier student. */
  lemma RunSuggestions(table: SlotTable, students: seq<Student>)
    requires ValidTable(table) && Run(table, students).Ok?
    ensures SoundSuggestions(LoadCatalog(table).value, Run(table, students).value.grid,
                             Run(table, students).value.leftover)
  {
    var cat, o := RunUnfold(table, students);
    CatalogKeysDistinct(table);
    CatalogSuggestions(cat, o.state.grid, Unallocated(students, Allocated(students, o.placements)));
  }
}

=== FILE: placement.dfy ===
/**
 The deterministic greedy placer: an assignment grid of cells per (day, batch)
 group, one cursor per group, and a single pass over the students in input
 order that puts each one into the first empty cell at or after the cursor of
 the first preferred group that still has one.
 */
module Placement {
  import opened Types

  /** ScheduleRecommendation, flattened: group -> cells by index. */
  type Grid = map<Group, seq<Cell>>

  /** next_slot_index: group -> the index the next scan starts at. */
  type Cursors = map<Group, nat>

  datatype State = State(grid: Grid, cursor: Cursors)

  /** One student's turn: the state afterwards and where they were put. */
  datatype Turn = Turn(state: State, placed: Option<Slot>)

  /** The pass so far: the state and, for each processed student in order,
      the slot they were put in (None if they were not placed). */
  datatype Outcome = Outcome(state: State, placements: seq<Option<Slot>>)

  /** The occupant of slot `p`, None for an empty or a nonexistent slot. */
  function Occupant(grid: Grid, p: Slot): Cell
  {
    var g := GroupOf(p);
    if g in grid && p.index < |grid[g]| then grid[g][p.index] else None
  }

  /** Cells `[0, c)` are occupied and cells `[c, |cells|)` are empty. */
  predicate FilledUpTo(cells: seq<Cell>, c: nat)
  {
    forall j :: 0 <= j < |cells| ==> (cells[j].Some? <==> j < c)
  }

  /** The shape the pass keeps: one row of `slotCount` cells and one cursor
      per catalog group, the cursor within bounds, and every row filled
      exactly up to its cursor. */
  predicate WellFormed(cat: Catalog, st: State)
  {
    && st.grid.Keys == Groups(cat)
    && st.cursor.Keys == Groups(cat)
    && forall g :: g in st.grid ==>
         && |st.grid[g]| == cat.slotCount
         && st.cursor[g] <= cat.slotCount
         && FilledUpTo(st.grid[g], st.cursor[g])
  }

  /** No free cell remains at or after the cursor of group `g`. */
  predicate Exhausted(cat: Catalog, st: State, g: Group)
  {
    g in st.cursor && st.cursor[g] == cat.slotCount
  }

  /** Every preference listed before position `j` is exhausted. */
  predicate ExhaustedBefore(cat: Catalog, st: State, prefs: seq<Group>, j: nat)
    requires j <= |prefs|
  {
    forall k :: 0 <= k < j ==> Exhausted(cat, st, prefs[k])
  }

  /** The grid and cursors before any student is processed. */
  function Initial(cat: Catalog): (st: State)
    ensures WellFormed(cat, st)
    ensures forall g :: g in Groups(cat) ==> st.cursor[g] == 0
    ensures forall p :: Occupant(st.grid, p).None?
  {
    var row: seq<Cell> := seq(cat.slotCount, _ => None);
    State(map g | g in Groups(cat) :: row, map g | g in Groups(cat) :: 0)
  }

  /** The scan `for sl in range(from, len(cells))` that stops at the first
      empty cell. */
  function FirstFree(cells: seq<Cell>, from: nat): (r: Option<nat>)
    ensures r.Some? ==>
      && from <= r.value < |cells|
      && cells[r.value].None?
      && forall j :: from <= j < r.value ==> cells[j].Some?
    ensures r.None? ==> forall j :: from <= j < |cells| ==> cells[j].Some?
    decreases |cells| - from
  {
    if from >= |cells| then None
    else if cells[from].None? then Some(from)
    else FirstFree(cells, from + 1)
  }

  /** In a well-formed state the scan never skips a cell: it stops at the
      cursor itself, or finds nothing when the cursor is at the end. */
  lemma ScanStopsAtCursor(cat: Catalog, st: State, g: Group)
    requires WellFormed(cat, st) && g in st.grid
    ensures FirstFree(st.grid[g], st.cursor[g])
            == if st.cursor[g] < cat.slotCount then Some(st.cursor[g]) else None
  {
    var c := st.cursor[g];
    var r := FirstFree(st.grid[g], c);
    if c < cat.slotCount {
      assert st.grid[g][c].None?;
    }
  }

  /** Put student `s` in the state after writing them into cell `i` of `g`. */
  function Put(st: State, g: Group, i: nat, s: StudentId): State
    requires g in st.grid && i < |st.grid[g]|
  {
    State(st.grid[g := st.grid[g][i := Some(s)]], st.cursor[g := i + 1])
  }

  /** One student's turn (the body of the loop over students): try each
      preferred group in order, scanning from its cursor; the first empty
      cell takes the student and moves that group's cursor past it. A group
      missing from the cursor map raises KeyError when the scan reaches it. */
  function PlaceStudent(cat: Catalog, st: State, s: StudentId, prefs: seq<Group>): (r: Result<Turn, Error>)
    requires WellFormed(cat, st)
    ensures r.Ok? ==> WellFormed(cat, r.value.state)
    decreases |prefs|
  {
    if |prefs| == 0 then Ok(Turn(st, None))
    else
      var g := prefs[0];
      if g !in st.cursor then Err(UnknownGroup(s, g))
      else
        match FirstFree(st.grid[g], st.cursor[g])
        case Some(i) =>
          ScanStopsAtCursor(cat, st, g);
          PutKeepsWellFormed(cat, st, g, s);
          Ok(Turn(Put(st, g, i, s), Some(Slot(g.day, g.batch, i))))
        case None => PlaceStudent(cat, st, s, prefs[1..])
  }

  /** A student is left out of their turn exactly when every group they
      list is exhausted, and then nothing changes. */
  lemma {:induction false} TurnLeavesOut(cat: Catalog, st: State, s: StudentId, prefs: seq<Group>)
    requires WellFormed(cat, st)
    ensures var r := PlaceStudent(cat, st, s, prefs);
      && (r == Ok(Turn(st, None)) <==> forall g :: g in prefs ==> Exhausted(cat, st, g))
      && (r.Ok? && r.value.placed.None? ==> r.value.state == st)
    decreases |prefs|
  {
    if |prefs| > 0 {
      var g := prefs[0];
      assert g in prefs;
      if g in st.cursor {
        ScanStopsAtCursor(cat, st, g);
        if FirstFree(st.grid[g], st.cursor[g]).None? {
          TurnLeavesOut(cat, st, s, prefs[1..]);
          assert forall g' :: g' in prefs <==> g' == g || g' in prefs[1..];
        }
      }
    }
  }

  /** A placed student takes the cursor cell of the first group in their
      list that has room, and that group's cursor moves one past it. */
  lemma {:induction false} TurnPlaces(cat: Catalog, st: State, s: StudentId, prefs: seq<Group>)
    requires WellFormed(cat, st)
    ensures var r := PlaceStudent(cat, st, s, prefs);
      r.Ok? && r.value.placed.Some? ==>
        var p := r.value.placed.value;
        && (exists j :: 0 <= j < |prefs| && prefs[j] == GroupOf(p) && ExhaustedBefore(cat, st, prefs, j))
        && GroupOf(p) in st.cursor
        && p.index == st.cursor[GroupOf(p)] < cat.slotCount
        && r.value.state == Put(st, GroupOf(p), p.index, s)
    decreases |prefs|
  {
    if |prefs| > 0 {
      var g := prefs[0];
      assert ExhaustedBefore(cat, st, prefs, 0);
      if g in st.cursor {
        ScanStopsAtCursor(cat, st, g);
        if FirstFree(st.grid[g], st.cursor[g]).None? {
          TurnPlaces(cat, st, s, prefs[1..]);
          ShiftPreferences(cat, st, prefs);
        }
      }
    }
  }

  /** A turn aborts only on a group outside the catalog, reached while every
      group listed before it was exhausted; a list of catalog groups never
      aborts. */
  lemma {:induction false} TurnAborts(cat: Catalog, st: State, s: StudentId, prefs: seq<Group>)
    requires WellFormed(cat, st)
    ensures var r := PlaceStudent(cat, st, s, prefs);
      && (r.Err? ==>
            && r.error.UnknownGroup? && r.error.student == s
            && r.error.group !in Groups(cat)
            && exists j :: 0 <= j < |prefs| && prefs[j] == r.error.group && ExhaustedBefore(cat, st, prefs, j))
      && ((forall g :: g in prefs ==> g in Groups(cat)) ==> r.Ok?)
    decreases |prefs|
  {
    if |prefs| > 0 {
      var g := prefs[0];
      assert g in prefs;
      assert ExhaustedBefore(cat, st, prefs, 0);
      if g in st.cursor {
        ScanStopsAtCursor(cat, st, g);
        if FirstFree(st.grid[g], st.cursor[g]).None? {
          TurnAborts(cat, st, s, prefs[1..]);
          ShiftPreferences(cat, st, prefs);
        }
      }
    }
  }

  /** Writing a student at the cursor of a group that has room keeps the
      state well formed. */
  lemma PutKeepsWellFormed(cat: Catalog, st: State, g: Group, s: StudentId)
    requires WellFormed(cat, st) && g in st.grid && st.cursor[g] < cat.slotCount
    ensures WellFormed(cat, Put(st, g, st.cursor[g], s))
  {
    var next := Put(st, g, st.cursor[g], s);
    forall h | h in next.grid
      ensures FilledUpTo(next.grid[h], next.cursor[h])
    {
      if h == g {
        assert FilledUpTo(st.grid[g], st.cursor[g]);
      } else {
        assert next.grid[h] == st.grid[h] && next.cursor[h] == st.cursor[h];
      }
    }
  }

  /** A position in `prefs[1..]` after an exhausted first preference is a
      position in `prefs`, one further on. */
  lemma ShiftPreferences(cat: Catalog, st: State, prefs: seq<Group>)
    requires |prefs| > 0 && Exhausted(cat, st, prefs[0])
    ensures forall j :: 0 <= j < |prefs| - 1 && ExhaustedBefore(cat, st, prefs[1..], j)
                        ==> prefs[j + 1] == prefs[1..][j] && ExhaustedBefore(cat, st, prefs, j + 1)
  {
    forall j | 0 <= j < |prefs| - 1 && ExhaustedBefore(cat, st, prefs[1..], j)
      ensures ExhaustedBefore(cat, st, prefs, j + 1)
    {
      forall k | 0 <= k < j + 1
        ensures Exhausted(cat, st, prefs[k])
      {
        if k > 0 {
          assert prefs[k] == prefs[1..][k - 1];
        }
      }
    }
  }

  /** The greedy pass over `students` (lines 104-124), students processed in
      input order; the first KeyError aborts the pass. */
  function Greedy(cat: Catalog, students: seq<Student>): (r: Result<Outcome, Error>)
    ensures r.Ok? ==> WellFormed(cat, r.value.state) && |r.value.placements| == |students|
    decreases |students|
  {
    if |students| == 0 then Ok(Outcome(Initial(cat), []))
    else
      match Greedy(cat, students[..|students| - 1])
      case Err(e) => Err(e)
      case Ok(o) =>
        var s := students[|students| - 1];
        match PlaceStudent(cat, o.state, s.id, s.prefs)
        case Err(e) => Err(e)
        case Ok(turn) => Ok(Outcome(turn.state, o.placements + [turn.placed]))
  }

  /** Once a prefix of the students aborts, the whole pass aborts with the
      same error. */
  lemma {:induction false} GreedyErrorPersists(cat: Catalog, students: seq<Student>, m: nat)
    requires m <= |students| && Greedy(cat, students[..m]).Err?
    ensures Greedy(cat, students) == Greedy(cat, students[..m])
    decreases |students| - m
  {
    if m < |students| {
      var pre := students[..m + 1];
      assert pre[..|pre| - 1] == students[..m];
      GreedyErrorPersists(cat, students, m + 1);
    } else {
      assert students[..m] == students;
    }
  }

  /** The inner scan `for sl in range(start_sl, slot_count)` that stops at
      the first empty cell. */
  method Scan(cells: seq<Cell>, start: nat) returns (found: Option<nat>)
    ensures found == FirstFree(cells, start)
  {
    var sl: nat := start;
    while sl < |cells|
      invariant start <= sl
      invariant FirstFree(cells, start) == FirstFree(cells, sl)
    {
      if cells[sl].None? {
        return Some(sl);
      }
      sl := sl + 1;
    }
    return None;
  }

  /** One step of the turn: the first preference decides, or hands over to
      the rest. */
  lemma PlaceStudentUnfold(cat: Catalog, st: State, s: StudentId, prefs: seq<Group>)
    requires WellFormed(cat, st) && |prefs| > 0
    ensures prefs[0] !in st.cursor ==> PlaceStudent(cat, st, s, prefs) == Err(UnknownGroup(s, prefs[0]))
    ensures prefs[0] in st.cursor ==> match FirstFree(st.grid[prefs[0]], st.cursor[prefs[0]])
      case Some(i) => PlaceStudent(cat, st, s, prefs)
                      == Ok(Turn(Put(st, prefs[0], i, s), Some(Slot(prefs[0].day, prefs[0].batch, i))))
      case None => PlaceStudent(cat, st, s, prefs) == PlaceStudent(cat, st, s, prefs[1..])
  {
  }

  /** One student's turn as the loop body writes it: walk the preferences
      until one yields a free cell (the `assigned` flag and the breaks). */
  method TakeTurn(cat: Catalog, st: State, s: Student) returns (r: Result<Turn, Error>)
    requires WellFormed(cat, st)
    ensures r == PlaceStudent(cat, st, s.id, s.prefs)
  {
    var j := 0;
    while j < |s.prefs|
      invariant 0 <= j <= |s.prefs|
      invariant PlaceStudent(cat, st, s.id, s.prefs) == PlaceStudent(cat, st, s.id, s.prefs[j..])
    {
      var g := s.prefs[j];
      PlaceStudentUnfold(cat, st, s.id, s.prefs[j..]);
      if g !in st.cursor {
        return Err(UnknownGroup(s.id, g));
      }
      var sl := Scan(st.grid[g], st.cursor[g]);
      if sl.Some? {
        var next := Put(st, g, sl.value, s.id);
        return Ok(Turn(next, Some(Slot(g.day, g.batch, sl.value))));
      }
      assert s.prefs[j..][1..] == s.prefs[j + 1..];
      j := j + 1;
    }
    assert s.prefs[j..] == [];
    return Ok(Turn(st, None));
  }

  /** The pass over the students in input order; the first KeyError aborts
      it. */
  method PlaceAll(cat: Catalog, students: seq<Student>) returns (r: Result<Outcome, Error>)
    ensures r == Greedy(cat, students)
    ensures r.Ok? ==> WellFormed(cat, r.value.state) && |r.value.placements| == |students|
  {
    var st := Initial(cat);
    var placements: seq<Option<Slot>> := [];
    var i := 0;
    while i < |students|
      invariant 0 <= i <= |students|
      invariant Greedy(cat, students[..i]) == Ok(Outcome(st, placements))
    {
      assert students[..i + 1][..i] == students[..i];
      var turn := TakeTurn(cat, st, students[i]);
      if turn.Err? {
        GreedyErrorPersists(cat, students, i + 1);
        return Err(turn.error);
      }
      st := turn.value.state;
      placements := placements + [turn.value.placed];
      i := i + 1;
    }
    assert students[..i] == students;
    r := Ok(Outcome(st, placements));
  }

  /** `allocated_students`: the ids of the students the pass placed. */
  function Allocated(students: seq<Student>, placements: seq<Option<Slot>>): (ids: set<StudentId>)
    requires |placements| == |students|
    ensures forall x :: x in ids <==> exists k :: 0 <= k < |students| && students[k].id == x && placements[k].Some?
  {
    set k | 0 <= k < |students| && placements[k].Some? :: students[k].id
  }

  /** `unallocated_students`: the ids of the students, in input order,
      that are not among the placed ids. */
  function Unallocated(students: seq<Student>, placedIds: set<StudentId>): (r: seq<StudentId>)
    ensures forall x :: x in r <==> x in Ids(students) && x !in placedIds
    ensures SubsequenceOf(r, Ids(students))
    ensures DistinctIds(students) ==> Distinct(r)
  {
    if |students| == 0 then []
    else
      var rest := Unallocated(students[1..], placedIds);
      var ids := Ids(students);
      assert ids[1..] == Ids(students[1..]);
      assert forall x :: x in ids <==> x == students[0].id || x in ids[1..];
      if students[0].id in placedIds then
        rest
      else
        assert DistinctIds(students) ==> students[0].id !in ids[1..];
        assert ([students[0].id] + rest)[1..] == rest;
        [students[0].id] + rest
  }
}

=== FILE: placement_facts.dfy ===
/**
 What the greedy pass guarantees about the grid it leaves behind: unit
 capacity, each student at most once, placements inside preferred groups,
 rows filled in input order from index 0, and a student left out only when
 all their groups are full.
 */
module PlacementFacts {
  import opened Types
  import opened Placement

  /** Each placement names a cell of one of that student's preferred
      groups, and that cell holds the student. */
  ghost predicate PlacementsInGrid(students: seq<Student>, o: Outcome)
    requires |o.placements| == |students|
  {
    forall k :: 0 <= k < |students| && o.placements[k].Some? ==>
      && GroupOf(o.placements[k].value) in students[k].prefs
      && Occupant(o.state.grid, o.placements[k].value) == Some(students[k].id)
  }

  /** Every occupied cell is the placement of the student it holds. */
  ghost predicate GridCovered(students: seq<Student>, o: Outcome)
    requires |o.placements| == |students|
  {
    forall p :: Occupant(o.state.grid, p).Some? ==>
      exists k :: 0 <= k < |students| && o.placements[k] == Some(p)
                  && Some(students[k].id) == Occupant(o.state.grid, p)
  }

  /** No two students were given the same slot. */
  ghost predicate PlacementsDistinct(o: Outcome)
  {
    forall k, k' :: 0 <= k < k' < |o.placements| && o.placements[k].Some? ==>
      o.placements[k] != o.placements[k']
  }

  /** The per-student placements agree with the grid in both directions and
      never share a slot. */
  ghost predicate Consistent(students: seq<Student>, o: Outcome)
  {
    && |o.placements| == |students|
    && PlacementsInGrid(students, o)
    && GridCovered(students, o)
    && PlacementsDistinct(o)
  }

  /** Writing at the cursor changes the occupant of exactly that slot. */
  lemma OccupantAfterPut(st: State, g: Group, i: nat, s: StudentId)
    requires g in st.grid && i < |st.grid[g]|
    ensures forall q :: Occupant(Put(st, g, i, s).grid, q)
                        == if q == Slot(g.day, g.batch, i) then Some(s) else Occupant(st.grid, q)
  {
  }

  /** The state after `students` grows from the state before: cursors only
      move forward and an occupied cell keeps its occupant. */
  ghost predicate Grows(a: State, b: State)
  {
    && (forall g :: g in a.cursor ==> g in b.cursor && a.cursor[g] <= b.cursor[g])
    && (forall p :: Occupant(a.grid, p).Some? ==> Occupant(b.grid, p) == Occupant(a.grid, p))
  }

  /** One turn never moves a cursor back and never overwrites a cell. */
  lemma TurnGrows(cat: Catalog, st: State, s: StudentId, prefs: seq<Group>)
    requires WellFormed(cat, st) && PlaceStudent(cat, st, s, prefs).Ok?
    ensures Grows(st, PlaceStudent(cat, st, s, prefs).value.state)
  {
    var turn := PlaceStudent(cat, st, s, prefs).value;
    TurnPlaces(cat, st, s, prefs);
    if turn.placed.Some? {
      var p := turn.placed.value;
      OccupantAfterPut(st, GroupOf(p), p.index, s);
      assert Occupant(st.grid, p).None?;
    }
  }

  /** The pass over a prefix is the start of the pass over the whole list:
      it succeeds, its placements are a prefix, and the final state grows
      from the state it leaves. */
  lemma {:induction false} GreedyPrefix(cat: Catalog, students: seq<Student>, m: nat)
    requires m <= |students| && Greedy(cat, students).Ok?
    ensures Greedy(cat, students[..m]).Ok?
    ensures Greedy(cat, students[..m]).value.placements == Greedy(cat, students).value.placements[..m]
    ensures Grows(Greedy(cat, students[..m]).value.state, Greedy(cat, students).value.state)
    decreases |students|
  {
    if m == |students| {
      assert students[..m] == students;
    } else {
      var pre := students[..|students| - 1];
      var o := Greedy(cat, pre).value;
      var s := students[|students| - 1];
      TurnGrows(cat, o.state, s.id, s.prefs);
      GreedyPrefix(cat, pre, m);
      assert pre[..m] == students[..m];
    }
  }

  /** Student `k`'s turn: the states just before and just after it, and
      how they sit between the empty start and the final state. */
  lemma TurnOf(cat: Catalog, students: seq<Student>, k: nat) returns (before: State, after: State)
    requires k < |students| && Greedy(cat, students).Ok?
    ensures WellFormed(cat, before)
    ensures PlaceStudent(cat, before, students[k].id, students[k].prefs)
            == Ok(Turn(after, Greedy(cat, students).value.placements[k]))
    ensures Grows(before, after) && Grows(after, Greedy(cat, students).value.state)
    ensures Grows(before, Greedy(cat, students).value.state)
    ensures Greedy(cat, students[..k]).Ok? && before == Greedy(cat, students[..k]).value.state
  {
    GreedyPrefix(cat, students, k + 1);
    GreedyPrefix(cat, students[..k + 1], k);
    assert students[..k + 1][..k] == students[..k];
    before := Greedy(cat, students[..k]).value.state;
    after := Greedy(cat, students[..k + 1]).value.state;
    TurnGrows(cat, before, students[k].id, students[k].prefs);
    GrowsTransitive(before, after, Greedy(cat, students).value.state);
  }

  lemma GrowsTransitive(a: State, b: State, c: State)
    requires Grows(a, b) && Grows(b, c)
    ensures Grows(a, c)
  {
  }

  /** Every cell of group `g` is occupied. */
  ghost predicate GroupFull(cat: Catalog, grid: Grid, g: Group)
  {
    forall i :: 0 <= i < cat.slotCount ==> Occupant(grid, Slot(g.day, g.batch, i)).Some?
  }

  /** A group exhausted in some state is entirely occupied in every
      well-formed state grown from it. */
  lemma ExhaustedStaysFull(cat: Catalog, st: State, final: State, h: Group)
    requires Exhausted(cat, st, h) && Grows(st, final) && WellFormed(cat, final)
    ensures GroupFull(cat, final.grid, h)
  {
    assert h in final.cursor && final.cursor[h] == cat.slotCount;
    assert FilledUpTo(final.grid[h], final.cursor[h]);
  }

  /** Two turns `k < k'`: the state after the first grows into the state
      before the second. */
  lemma TurnsInOrder(cat: Catalog, students: seq<Student>, k: nat, k': nat)
    returns (before: State, after: State, before': State, after': State)
    requires k < k' < |students| && Greedy(cat, students).Ok?
    ensures WellFormed(cat, before) && WellFormed(cat, before')
    ensures PlaceStudent(cat, before, students[k].id, students[k].prefs)
            == Ok(Turn(after, Greedy(cat, students).value.placements[k]))
    ensures PlaceStudent(cat, before', students[k'].id, students[k'].prefs)
            == Ok(Turn(after', Greedy(cat, students).value.placements[k']))
    ensures Grows(after, before')
  {
    before', after' := TurnOf(cat, students, k');
    var pre := students[..k'];
    GreedyPrefix(cat, students, k');
    assert pre[k] == students[k];
    before, after := TurnOf(cat, pre, k);
  }

  /** A turn that places nobody keeps the placements consistent. */
  lemma ConsistentAfterSkip(pre: seq<Student>, o: Outcome, s: Student)
    requires Consistent(pre, o)
    ensures Consistent(pre + [s], Outcome(o.state, o.placements + [None]))
  {
    var students := pre + [s];
    var o' := Outcome(o.state, o.placements + [None]);
    assert forall k :: 0 <= k < |pre| ==> students[k] == pre[k] && o'.placements[k] == o.placements[k];
    forall p | Occupant(o'.state.grid, p).Some?
      ensures exists k :: 0 <= k < |students| && o'.placements[k] == Some(p)
                          && Some(students[k].id) == Occupant(o'.state.grid, p)
    {
      var k :| 0 <= k < |pre| && o.placements[k] == Some(p) && Some(pre[k].id) == Occupant(o.state.grid, p);
      assert o'.placements[k] == Some(p);
    }
  }

  /** A turn that writes student `s` into the empty slot `p` of one of their
      groups keeps the placements consistent. */
  lemma ConsistentAfterPlace(pre: seq<Student>, o: Outcome, s: Student, p: Slot)
    requires Consistent(pre, o)
    requires GroupOf(p) in o.state.grid && p.index < |o.state.grid[GroupOf(p)]|
    requires Occupant(o.state.grid, p).None? && GroupOf(p) in s.prefs
    ensures Consistent(pre + [s], Outcome(Put(o.state, GroupOf(p), p.index, s.id), o.placements + [Some(p)]))
  {
    var students := pre + [s];
    var n := |pre|;
    var o' := Outcome(Put(o.state, GroupOf(p), p.index, s.id), o.placements + [Some(p)]);
    OccupantAfterPut(o.state, GroupOf(p), p.index, s.id);
    assert forall k :: 0 <= k < n ==> students[k] == pre[k] && o'.placements[k] == o.placements[k];
    assert PlacementsInGrid(students, o');
    forall q | Occupant(o'.state.grid, q).Some?
      ensures exists k :: 0 <= k < |students| && o'.placements[k] == Some(q)
                          && Some(students[k].id) == Occupant(o'.state.grid, q)
    {
      if q != p {
        var k :| 0 <= k < |pre| && o.placements[k] == Some(q) && Some(pre[k].id) == Occupant(o.state.grid, q);
        assert o'.placements[k] == Some(q);
      } else {
        assert o'.placements[n] == Some(q);
      }
    }
    forall k, k' | 0 <= k < k' < |students| && o'.placements[k].Some?
      ensures o'.placements[k] != o'.placements[k']
    {
      if k' == n {
        assert Occupant(o.state.grid, o.placements[k].value).Some?;
      }
    }
  }

  /** One turn keeps the placements consistent with the grid. */
  lemma ConsistentAfterTurn(cat: Catalog, pre: seq<Student>, o: Outcome, s: Student, turn: Turn)
    requires Consistent(pre, o) && WellFormed(cat, o.state)
    requires PlaceStudent(cat, o.state, s.id, s.prefs) == Ok(turn)
    ensures Consistent(pre + [s], Outcome(turn.state, o.placements + [turn.placed]))
  {
    TurnLeavesOut(cat, o.state, s.id, s.prefs);
    TurnPlaces(cat, o.state, s.id, s.prefs);
    if turn.placed.None? {
      ConsistentAfterSkip(pre, o, s);
    } else {
      var p := turn.placed.value;
      assert GroupOf(p) in s.prefs;
      ConsistentAfterPlace(pre, o, s, p);
    }
  }

  /** The greedy pass keeps its placements consistent with its grid. */
  lemma {:induction false} GreedyConsistent(cat: Catalog, students: seq<Student>)
    requires Greedy(cat, students).Ok?
    ensures Consistent(students, Greedy(cat, students).value)
    decreases |students|
  {
    if |students| > 0 {
      var n := |students| - 1;
      var pre := students[..n];
      var o := Greedy(cat, pre).value;
      var s := students[n];
      var turn := PlaceStudent(cat, o.state, s.id, s.prefs).value;
      assert students == pre + [s];
      GreedyConsistent(cat, pre);
      ConsistentAfterTurn(cat, pre, o, s, turn);
    }
  }

  /** Unit capacity both ways: with distinct student ids (the keys of the
      preference dictionary) no student occupies two slots. */
  lemma EachStudentAtMostOnce(cat: Catalog, students: seq<Student>)
    requires DistinctIds(students) && Greedy(cat, students).Ok?
    ensures var grid := Greedy(cat, students).value.state.grid;
      forall p, q :: Occupant(grid, p).Some? && Occupant(grid, p) == Occupant(grid, q) ==> p == q
  {
    var o := Greedy(cat, students).value;
    GreedyConsistent(cat, students);
    forall p, q | Occupant(o.state.grid, p).Some? && Occupant(o.state.grid, p) == Occupant(o.state.grid, q)
      ensures p == q
    {
      var k :| 0 <= k < |students| && o.placements[k] == Some(p) && Some(students[k].id) == Occupant(o.state.grid, p);
      var k' :| 0 <= k' < |students| && o.placements[k'] == Some(q) && Some(students[k'].id) == Occupant(o.state.grid, q);
      assert k == k';
    }
  }

  /** A student left unplaced had every preferred group full when their
      turn came, and those groups stay full: in the final grid every cell of
      every group they listed is occupied. */
  lemma UnplacedMeansPreferencesFull(cat: Catalog, students: seq<Student>, k: nat)
    requires k < |students| && Greedy(cat, students).Ok?
    requires Greedy(cat, students).value.placements[k].None?
    ensures forall g :: g in students[k].prefs ==> GroupFull(cat, Greedy(cat, students).value.state.grid, g)
  {
    var before, after := TurnOf(cat, students, k);
    var final := Greedy(cat, students).value.state;
    TurnLeavesOut(cat, before, students[k].id, students[k].prefs);
    assert after == before;
    forall g | g in students[k].prefs
      ensures GroupFull(cat, final.grid, g)
    {
      ExhaustedStaysFull(cat, before, final, g);
    }
  }

  /** A placed student sits in the first group of their list that still had
      a free cell; every group listed before it is full in the final grid. */
  lemma PlacedInFirstOpenPreference(cat: Catalog, students: seq<Student>, k: nat)
    requires k < |students| && Greedy(cat, students).Ok?
    requires Greedy(cat, students).value.placements[k].Some?
    ensures var o := Greedy(cat, students).value;
      var p := o.placements[k].value;
      exists j :: 0 <= j < |students[k].prefs| && students[k].prefs[j] == GroupOf(p)
        && forall j' :: 0 <= j' < j ==> GroupFull(cat, o.state.grid, students[k].prefs[j'])
  {
    var before, after := TurnOf(cat, students, k);
    var final := Greedy(cat, students).value.state;
    var p := Greedy(cat, students).value.placements[k].value;
    var prefs := students[k].prefs;
    TurnPlaces(cat, before, students[k].id, prefs);
    var j :| 0 <= j < |prefs| && prefs[j] == GroupOf(p) && ExhaustedBefore(cat, before, prefs, j);
    forall j' | 0 <= j' < j
      ensures GroupFull(cat, final.grid, prefs[j'])
    {
      ExhaustedStaysFull(cat, before, final, prefs[j']);
    }
  }

  /** Within one group the cells are handed out in input order: a later
      student placed in the same group gets a strictly higher index. */
  lemma FillOrderWithinGroup(cat: Catalog, students: seq<Student>, k: nat, k': nat)
    requires k < k' < |students| && Greedy(cat, students).Ok?
    requires var ps := Greedy(cat, students).value.placements;
      ps[k].Some? && ps[k'].Some? && GroupOf(ps[k].value) == GroupOf(ps[k'].value)
    ensures var ps := Greedy(cat, students).value.placements;
      ps[k].value.index < ps[k'].value.index
  {
    var ps := Greedy(cat, students).value.placements;
    var p := ps[k].value;
    var q := ps[k'].value;
    var g := GroupOf(p);
    var beforeK, afterK, beforeK', afterK' := TurnsInOrder(cat, students, k, k');
    TurnPlaces(cat, beforeK, students[k].id, students[k].prefs);
    TurnPlaces(cat, beforeK', students[k'].id, students[k'].prefs);
    assert afterK.cursor[g] == p.index + 1;
    assert afterK.cursor[g] <= beforeK'.cursor[g];
  }

  /** Student `x` sits somewhere in the grid. */
  ghost predicate InGrid(grid: Grid, x: StudentId)
  {
    exists p :: Occupant(grid, p) == Some(x)
  }

  /** Placed and unplaced students partition the roster: a student is listed
      in `unallocated_students` exactly when the pass left them out, which is
      exactly when they appear nowhere in the grid. */
  lemma UnallocatedPartition(cat: Catalog, students: seq<Student>)
    requires DistinctIds(students) && Greedy(cat, students).Ok?
    ensures var o := Greedy(cat, students).value;
      var u := Unallocated(students, Allocated(students, o.placements));
      forall k :: 0 <= k < |students| ==>
        && (students[k].id in u <==> o.placements[k].None?)
        && (students[k].id in u <==> !InGrid(o.state.grid, students[k].id))
  {
    var o := Greedy(cat, students).value;
    var u := Unallocated(students, Allocated(students, o.placements));
    GreedyConsistent(cat, students);
    forall k | 0 <= k < |students|
      ensures students[k].id in u <==> o.placements[k].None?
      ensures students[k].id in u <==> !InGrid(o.state.grid, students[k].id)
    {
      var x := students[k].id;
      assert x in Ids(students);
      if o.placements[k].Some? {
        assert Occupant(o.state.grid, o.placements[k].value) == Some(x);
      }
      if InGrid(o.state.grid, x) {
        var p :| Occupant(o.state.grid, p) == Some(x);
        var k' :| 0 <= k' < |students| && o.placements[k'] == Some(p) && Some(students[k'].id) == Occupant(o.state.grid, p);
        assert k' == k;
      }
    }
  }

  /** A roster whose preferences all name catalog groups never aborts the
      pass. */
  lemma {:induction false} GreedySucceeds(cat: Catalog, students: seq<Student>)
    requires forall k, g :: 0 <= k < |students| && g in students[k].prefs ==> g in Groups(cat)
    ensures Greedy(cat, students).Ok?
    decreases |students|
  {
    if |students| > 0 {
      var pre := students[..|students| - 1];
      GreedySucceeds(cat, pre);
      var s := students[|students| - 1];
      TurnAborts(cat, Greedy(cat, pre).value.state, s.id, s.prefs);
    }
  }

  /** An aborted pass names a student of the roster and a group outside the
      catalog that this student lists. */
  lemma {:induction false} GreedyErrorSource(cat: Catalog, students: seq<Student>)
    requires Greedy(cat, students).Err?
    ensures var e := Greedy(cat, students).error;
      && e.UnknownGroup? && e.group !in Groups(cat)
      && exists k :: 0 <= k < |students| && students[k].id == e.student && e.group in students[k].prefs
    decreases |students|
  {
    var pre := students[..|students| - 1];
    var s := students[|students| - 1];
    if Greedy(cat, pre).Err? {
      GreedyErrorSource(cat, pre);
      var k :| 0 <= k < |pre| && pre[k].id == Greedy(cat, pre).error.student && Greedy(cat, pre).error.group in pre[k].prefs;
      assert students[k] == pre[k];
    } else {
      TurnAborts(cat, Greedy(cat, pre).value.state, s.id, s.prefs);
      assert students[|students| - 1] == s;
    }
  }
}

=== FILE: types.dfy ===
/**
 The vocabulary shared by every stage of the scheduler: keys, groups, slots,
 students, the uniform slot catalog and the Option and Result wrappers.

 Day and batch keys are strings because they are the keys of a JSON object;
 a student's preference pair is taken as the two key strings `str(d)` and
 `str(b)` produce.
 */
module Types {

  datatype Option<+T> = None | Some(value: T)

  datatype Result<+T, +E> = Ok(value: T) | Err(error: E)

  type Key = string

  type StudentId = string

  /** A (day, batch) group: all slots sharing that day and batch. */
  datatype Group = Group(day: Key, batch: Key)

  /** The smallest bookable unit, capacity one. */
  datatype Slot = Slot(day: Key, batch: Key, index: nat)

  /** A preference record: the id and the ordered list of accepted groups.
      The submission timestamp only feeds the weights, which are not modelled. */
  datatype Student = Student(id: StudentId, prefs: seq<Group>)

  /** The uniform catalog: every day has the same batches and every group the
      same number of slot indices. `days` and `batches` keep the dictionary's
      insertion order. */
  datatype Catalog = Catalog(days: seq<Key>, batches: seq<Key>, slotCount: nat)

  /** A grid cell: the occupant, if any. */
  type Cell = Option<StudentId>

  /** Everything that can abort a run, in the order the program meets them. */
  datatype Error =
    | MissingReferenceDay                          // AvailableSlot["1"] raises
    | MissingReferenceBatch                        // AvailableSlot["1"]["1"] raises
    | NoStudents                                   // min() of an empty sequence raises
    | UnknownGroup(student: StudentId, group: Group) // next_slot_index[(d, b)] raises
    | MissingBatch(day: Key, batch: Key)           // AvailableSlot[d][b] raises
    | MissingStartTime(day: Key, batch: Key)       // AvailableSlot[d][b][sl] raises

  function GroupOf(p: Slot): Group
  {
    Group(p.day, p.batch)
  }

  /** The groups of a catalog: every day paired with every batch. */
  function Groups(cat: Catalog): (gs: set<Group>)
    ensures forall d, b :: Group(d, b) in gs <==> d in cat.days && b in cat.batches
  {
    set d, b | d in cat.days && b in cat.batches :: Group(d, b)
  }

  /** A slot of the catalog. */
  predicate CatalogSlot(cat: Catalog, p: Slot)
  {
    p.day in cat.days && p.batch in cat.batches && p.index < cat.slotCount
  }

  predicate Distinct<T(==)>(s: seq<T>)
  {
    forall i, j :: 0 <= i < j < |s| ==> s[i] != s[j]
  }

  /** `a` is `b` with some elements dropped, the rest kept in order. */
  predicate SubsequenceOf<T(==)>(a: seq<T>, b: seq<T>)
    decreases |b|
  {
    if |b| == 0 then |a| == 0
    else (|a| > 0 && a[0] == b[0] && SubsequenceOf(a[1..], b[1..])) || SubsequenceOf(a, b[1..])
  }

  function Ids(students: seq<Student>): (ids: seq<StudentId>)
    ensures |ids| == |students|
    ensures forall k :: 0 <= k < |students| ==> ids[k] == students[k].id
  {
    seq(|students|, k requires 0 <= k < |students| => students[k].id)
  }

  /** Student ids are the keys of a dictionary, hence pairwise different. */
  predicate DistinctIds(students: seq<Student>)
  {
    forall i, j :: 0 <= i < j < |students| ==> students[i].id != students[j].id
  }
}
